=== FILE: README.md ===
# INI engine model

A Dafny model of the `IniFile` class of the Jbltx Configurator package
(`Scripts/Runtime/IniFile.cs`). It covers:

- **Loading.** The `TheFile` setter reads the file line by line. It trims
  each line and skips blank lines and comments. A `[section]` line changes
  the current section. A `key=value` line is stored under the lower-cased
  identity `"[section]key"`. A repeated identity goes to its first unused
  duplicate slot `"[section]key~N"`, for N = 2, 3, …
- **The accessors over the loaded dictionary:**
  - `TryGetValue`;
  - `GetValue`, which writes the default on a miss;
  - `GetInteger`, with its clamp;
  - `GetBoolean`;
  - `GetAllValues`, which reads the duplicate chain;
  - `SetValue`.
- **The text `Save` writes.** Identities are written in ascending order. A
  `[section]` header is written whenever the section changes, starting from
  `""`. Each identity is followed by `key=value`.

The dictionary is an immutable `map<string, string>` (`Slots.Dict`). A getter
returns its value together with the dictionary it leaves behind
(`Store.Read`). File contents are a `string`, split into lines the way
`StreamReader.ReadLine` splits them (`Lines.ReadLines`).

Two failures of the source become `None` results instead of exceptions:

- `Parser.Parse` returns `None` when a value is the single character `"`.
  That value passes both quote tests at line 92, and then `Substring` throws
  at line 93.
- `Writer.SaveText` returns `None` when an identity cannot be split by the
  `Split(']')[0].Split('[')[1]` and `Split(']')[1]` of lines 301 and 305.
  `SetValue` produces such identities when its section starts with `'['`.

Modules, in dependency order:

| module | file | what it holds |
|---|---|---|
| `Wrappers` | wrappers.dfy | `Option` |
| `Text` | text.dfy | `Char.IsWhiteSpace`, `String.Trim`, `ToLower`, `StartsWith`, `IndexOf` |
| `Numbers` | numbers.dfy | `Int32.ToString`, `Int32.TryParse`, the decimal `~N` suffix |
| `Ordering` | ordering.dfy | code-point string order and sorting a set of identities |
| `Lines` | lines.dfy | `StreamReader.ReadLine` splitting and Save's `"\n"` joining |
| `Slots` | slots.dfy | duplicate slots, the free-slot search, the chain `GetAllValues` reads |
| `Parser` | parser.dfy | line classification, quote stripping, the parse loop |
| `Store` | store.dfy | identity normalisation and the getters and setter |
| `Writer` | writer.dfy | Save's text generation |
| `RoundTrip` | roundtrip.dfy | loading what Save wrote gives back the dictionary |
| `Chains` | chains.dfy | after a load, `GetAllValues` lists a key's values in file order |

The two main results:

- **`RoundTrip.SaveThenLoad`.** Loading the text `Save` writes gives back the
  saved dictionary. This holds for every dictionary whose entries survive
  the trip:
  - sections contain no `[` or `]`;
  - keys contain no `=` or `]` and do not start with `[`;
  - no written line starts with the comment delimiter;
  - keys, sections and values have no surrounding white space and no line
    breaks;
  - values are not wrapped in quotes;
  - identities are in lower case, as the engine always stores them.
- **`Chains.LoadThenAllValues`.** After a load, `GetAllValues` returns the
  values of a key's lines in the order the file states them.

## Model

| member | source | states |
|---|---|---|
| Text.TrimInfix | Scripts/Runtime/IniFile.cs:73 | `String.Trim` keeps the line's middle part and removes only white space, at either end; the result has no white space at either end, and a string already without it is returned unchanged |
| Text.TrimEmpty | Scripts/Runtime/IniFile.cs:73-74 | trimming leaves nothing exactly when every character is white space, so a line of white space only is skipped |
| Text.TrimKeepsChars | Scripts/Runtime/IniFile.cs:73 | trimming never introduces a character |
| Text.IndexOf | Scripts/Runtime/IniFile.cs:80 | the position of the first `]`/`=`: the character sits there, and the result is the length exactly when the character is absent |
| Text.IndexOfFirst | Scripts/Runtime/IniFile.cs:80 | no earlier position holds the character |
| Numbers.NatToStringRoundTrip | Scripts/Runtime/IniFile.cs:101 | the decimal text of the `~N` suffix reads back as N |
| Numbers.ParseIntToString | Scripts/Runtime/IniFile.cs:186-191 | `int.TryParse` (`Numbers.ParseInt32`) reads back every `int.ToString()` (`Numbers.IntToString`), so the default GetInteger stored is parsed again |
| Numbers.ParseInt32Padded | Scripts/Runtime/IniFile.cs:191 | `int.TryParse` skips white space before and after the number |
| Numbers.ParseInt32Overflow | Scripts/Runtime/IniFile.cs:191-196 | `int.TryParse` rejects the decimal text of every number above `int.MaxValue` or below `int.MinValue`, so GetInteger falls back to its floating-point parse |
| Ordering.SortSet | Scripts/Runtime/IniFile.cs:299 | the identities in strictly ascending code-point order: each exactly once, and nothing else |
| Ordering.AscendingDistinct | Scripts/Runtime/IniFile.cs:299 | an ascending sequence of identities repeats none |
| Lines.ReadLines | Scripts/Runtime/IniFile.cs:71 | no line that `ReadLine` returns contains a line break |
| Lines.ReadLinesStep | Scripts/Runtime/IniFile.cs:71 | `"\n"`, `"\r\n"` and a `"\r"` not followed by `"\n"` each end exactly one line, and the line is returned without its terminator |
| Lines.ReadLinesLast | Scripts/Runtime/IniFile.cs:71 | a last line without a terminator is still returned |
| Lines.ReadJoinLines | Scripts/Runtime/IniFile.cs:71 | reading back lines that were each written with a trailing `"\n"` gives exactly those lines |
| Slots.SlotInjective | Scripts/Runtime/IniFile.cs:101 | two slot identities of one head are equal only for equal numbers |
| Slots.SlotsOfDistinctHeads | Scripts/Runtime/IniFile.cs:101 | slots of two different `~`-free heads never collide |
| Slots.FreeSlot | Scripts/Runtime/IniFile.cs:97-107 | the search stops at the first unused slot: every slot before it is used |
| Slots.Chain | Scripts/Runtime/IniFile.cs:275-282 | the values of the consecutive used slots, stopping at the first unused slot |
| Slots.ChainEndsAtFreeSlot | Scripts/Runtime/IniFile.cs:97-107 | a new duplicate takes the slot right after the chain GetAllValues reads |
| Slots.ValuesAt | Scripts/Runtime/IniFile.cs:270-284 | None exactly when the head is absent; otherwise the head's value, then the value of slot i at position i for i = 2, 3, …, and the slot after the last is unused |
| Slots.ChainFrame | Scripts/Runtime/IniFile.cs:326 | writing an identity that is not a slot of the head leaves the chain unchanged |
| Parser.ClassifyBlank | Scripts/Runtime/IniFile.cs:73-74 | `Parser.Classify` finds a line blank exactly when it is all white space |
| Parser.ClassifyComment | Scripts/Runtime/IniFile.cs:75-76 | `Parser.Classify` finds a line a comment exactly when its trimmed text is non-empty and starts with a non-empty delimiter |
| Parser.ClassifyHeaderShape | Scripts/Runtime/IniFile.cs:78-82 | a section `Parser.Classify` reads is trimmed, has no `]`, and is made of the line's characters |
| Parser.ClassifyPairShape | Scripts/Runtime/IniFile.cs:85-89 | a key `Parser.Classify` reads has no `=`, key and value are trimmed, and the key is made of the line's characters |
| Parser.ClassifyHeaderLine | Scripts/Runtime/IniFile.cs:78-82 | a `[s]` line Save writes is read back as section `s` |
| Parser.ClassifyPairLine | Scripts/Runtime/IniFile.cs:85-89 | a `k=v` line Save writes is read back as key `k`, value `v` |
| Parser.Unquote | Scripts/Runtime/IniFile.cs:92-93 | a quote-wrapped value loses exactly its outer quotes, any other value is kept, and the value `"` fails |
| Parser.AddEntry | Scripts/Runtime/IniFile.cs:95-112 | storing never overwrites and adds exactly one identity: the head if unused, otherwise the first unused slot from 2 |
| Parser.ParseFrom | Scripts/Runtime/IniFile.cs:70-114 | the parse loop never removes or changes an entry stored before it |
| Parser.Build | Scripts/Runtime/IniFile.cs:90-112 | storing n entries keeps the earlier ones and adds exactly n identities |
| Parser.ParseIsBuild | Scripts/Runtime/IniFile.cs:70-114 | the parse loop fails exactly when some `key=value` line fails, and otherwise stores the file's entries in file order |
| Parser.ParseFromFails | Scripts/Runtime/IniFile.cs:70-114 | the parse loop fails exactly when one of its lines is a `key=value` line whose value is the lone `"` |
| Parser.ParseFails | Scripts/Runtime/IniFile.cs:70-117 | loading a file's lines (`Parser.ParseLines`, which `Parser.Parse` applies to the lines `ReadLine` returns) fails exactly when some line is `key="` after trimming, the value on which line 93 throws |
| Parser.ParseAddsOnePerPair | Scripts/Runtime/IniFile.cs:85-112 | the loaded dictionary has exactly one identity per `key=value` line |
| Store.TryGetValue | Scripts/Runtime/IniFile.cs:125-134 | a hit exactly when the normalised identity is stored, with the stored value |
| Store.SetValue | Scripts/Runtime/IniFile.cs:319-326 | the identity takes the value, and every other identity, duplicates included, keeps its value |
| Store.GetValue | Scripts/Runtime/IniFile.cs:144-154 | a hit returns the stored value and changes nothing; a miss stores the default and returns it |
| Store.Clamp | Scripts/Runtime/IniFile.cs:199-202 | with min <= max the result lies in [min, max], a value already in range is kept, a value below min becomes min and a value above max becomes max |
| Store.GetInteger | Scripts/Runtime/IniFile.cs:180-204 | a miss stores and returns the default unclamped; a hit changes nothing; an integer value is clamped with `Store.Clamp`; otherwise the floating-point fallback's value is clamped the same way, and when that fails too the default is returned |
| Store.GetBoolean | Scripts/Runtime/IniFile.cs:243-253 | a hit is false exactly for `"0"` or a leading `f`/`F`; a miss stores `"True"`/`"False"` and returns the default |
| Store.GetAllValues | Scripts/Runtime/IniFile.cs:262-285 | None exactly when the head is absent, otherwise the head value then slots 2, 3, … up to the first gap |
| Store.LookupMatchesParse | Scripts/Runtime/IniFile.cs:127-133 | for a section not starting with `[`, the identity a getter looks up (`Store.LookupId`) is the one the parser stores (`Parser.HeadId`) |
| Store.LookupBracketedSection | Scripts/Runtime/IniFile.cs:127-131 | a section passed already bracketed, `"[s]"`, addresses the same identity as `s` |
| Store.BoolToStringMeans | Scripts/Runtime/IniFile.cs:248-252 | the `"True"`/`"False"` text a GetBoolean miss stores reads back (`Store.MeansFalse`) as the default it stored |
| Store.LookupIgnoresCase | Scripts/Runtime/IniFile.cs:125-134 | sections and keys that differ only in letter case address the same identity and read the same value |
| Store.GetValueStable | Scripts/Runtime/IniFile.cs:144-154 | a second GetValue returns what the first returned, whatever its default, and changes nothing |
| Store.GetAfterSet | Scripts/Runtime/IniFile.cs:319-326 | GetValue after SetValue returns the value set |
| Store.SetValueKeepsDuplicates | Scripts/Runtime/IniFile.cs:319-326 | SetValue replaces only the first of the values GetAllValues lists |
| Store.MissThenAllValues | Scripts/Runtime/IniFile.cs:147-150 | after a missing GetValue, GetAllValues lists the default alone |
| Store.GetBooleanStable | Scripts/Runtime/IniFile.cs:246-249 | a second GetBoolean returns what the first returned, whatever its default |
| Store.GetIntegerAfterMiss | Scripts/Runtime/IniFile.cs:184-191 | after a missing GetInteger, a second call reads the stored default back and clamps it |
| Writer.SectionOfPrefixed | Scripts/Runtime/IniFile.cs:301 | the section Save splits out of `"[s]rest"` (`Writer.SectionOf`) is `s` when `s` holds no `[` or `]` |
| Writer.NameOfKey | Scripts/Runtime/IniFile.cs:305 | the key Save splits out of `"[s]k"` (`Writer.NameOf`) is `k` when neither holds `]` |
| Writer.NameOfCut | Scripts/Runtime/IniFile.cs:305 | a key holding `]` is written cut at its first `]` |
| Writer.HeadIdShaped | Scripts/Runtime/IniFile.cs:90 | every identity the parser builds opens with `[` and holds a `]` |
| Writer.HeadShapedWritable | Scripts/Runtime/IniFile.cs:301-305 | Save splits every identity that opens with `[` and holds a `]`, whatever brackets its section holds |
| Writer.SaveAfterLoad | Scripts/Runtime/IniFile.cs:61-117 | Save (`Writer.SaveText`) never throws on a dictionary a load produced |
| Writer.BracketedSection | Scripts/Runtime/IniFile.cs:301-305 | an identity `"[s]rest"` whose section `s` holds no `[` or `]` splits without throwing, into the section `s` |
| Writer.EmitFrom | Scripts/Runtime/IniFile.cs:299-306 | fails exactly when some identity cannot be split, and writes only headers and pairs |
| Writer.SaveLines | Scripts/Runtime/IniFile.cs:299-306 | Save fails exactly when some stored identity cannot be split |
| Writer.EmitHeadersAreSections | Scripts/Runtime/IniFile.cs:302-303 | every header written names the section of a written identity |
| Writer.SectionBetween | Scripts/Runtime/IniFile.cs:299-301 | for identities `"[s]rest"` whose sections hold no `[`, an identity sorted between two identities of one section belongs to that section |
| Writer.AscendingGroupsSections | Scripts/Runtime/IniFile.cs:299-301 | for identities whose sections hold no `[`, ascending order keeps the identities of each section adjacent |
| Writer.EmitHeadersDistinct | Scripts/Runtime/IniFile.cs:302-304 | with sections adjacent, no header is written twice |
| Writer.EmitReadBack | Scripts/Runtime/IniFile.cs:299-305 | reading the written lines back in order, tracking the last header, yields each identity's section, key and value in the order given, and a header is written only where the section changes and always right before a pair |
| Writer.SaveOrder | Scripts/Runtime/IniFile.cs:298-306 | Save writes one pair per identity, in ascending identity order; the i-th pair carries the key split out of the i-th identity and its value, under the nearest header before it, which names that identity's section, or under no header when the section is `""`; headers appear only where the section changes |
| Writer.SaveWritesEachHeaderOnce | Scripts/Runtime/IniFile.cs:298-306 | for a dictionary whose sections hold no `[`, Save writes each section header at most once |
| Writer.SectionOfNested | Scripts/Runtime/IniFile.cs:301 | Save reads the section of `"[a[b]rest"` as `a`: the split stops at the second `[` |
| Writer.BracketedSectionsInterleave | Scripts/Runtime/IniFile.cs:299-304 | the identities `"[x[y]k"`, `"[x\]k"` and `"[x]k"`, which headers `[x[y]`, `[x\]` and `[x]` load as, are in ascending code-point order, yet Save reads the first and the last as section `x` and the middle one as `x\`, so they are not grouped by section, the condition under which `Writer.EmitHeadersDistinct` rules out a repeated header |
| RoundTrip.CleanSplit | Scripts/Runtime/IniFile.cs:90 | a clean identity is the `Parser.HeadId` of the section and key Save splits out of it |
| RoundTrip.CleanEntry | Scripts/Runtime/IniFile.cs:90 | Save splits a clean identity back into the section and key it was built from |
| RoundTrip.ParseCleanEntry | Scripts/Runtime/IniFile.cs:78-112 | the lines Save writes for one clean identity are read back as that entry, in its section |
| RoundTrip.EmitNoBreaks | Scripts/Runtime/IniFile.cs:303-305 | no line Save writes for clean entries holds a line break |
| RoundTrip.EmitThenParse | Scripts/Runtime/IniFile.cs:61-117 | parsing the written lines adds exactly the written entries |
| RoundTrip.LoadSaved | Scripts/Runtime/IniFile.cs:303-308 | the text Save writes is read back line by line as exactly the lines Save rendered |
| RoundTrip.SaveThenLoad | Scripts/Runtime/IniFile.cs:291-311 | loading the text Save writes gives back the saved dictionary |
| Chains.HoldsValuesAt | Scripts/Runtime/IniFile.cs:270-284 | GetAllValues reads exactly the values a dictionary holds for a head |
| Chains.AddEntryHolds | Scripts/Runtime/IniFile.cs:95-112 | a new value for a head lands right after the values already held |
| Chains.AddEntryOtherHolds | Scripts/Runtime/IniFile.cs:95-112 | a value for another head leaves a head's values alone |
| Chains.BuildHolds | Scripts/Runtime/IniFile.cs:90-112 | storing entries appends, in order, the values they state for each head |
| Chains.NoTildeNames | Scripts/Runtime/IniFile.cs:78-89 | a line without `~` names a section or key without `~` |
| Chains.LoadThenAllValues | Scripts/Runtime/IniFile.cs:95-112 | after loading a file whose headers and keys hold no `~`, GetAllValues returns, in file order, the values of the lines stored under the identity it looks up, and None when there is none; the section may be bare or already bracketed |

## Left out

- File I/O is not modelled:
  - the existence check and file creation in the `TheFile` setter (lines 63-67);
  - `StreamReader` (line 68); the model takes the file text as a string;
  - `File.WriteAllText` in `Save` (line 308); the model returns the text.
- The reload at the end of `Save`, when the target file name differs (lines 309-310), is not modelled. It is file I/O followed by a new load, which `Parser.Parse` already models.
- The `Save()` call inside `SetValue` (line 327) is not modelled. `Store.SetValue` is a pure state update, so it throws neither when no file has been set nor when Save cannot split an identity. In the source that second throw comes after the dictionary was updated: `SetValue("[a", "b", v)` stores the identity `"[ab"`, which has no `]`, and from then on every `SetValue` and every getter miss (which calls `SetValue`) throws. `Writer.SaveText` returns None for such a dictionary.
- `GetDouble` (lines 215-234) is not modelled because it is floating point.
- The `double.TryParse` fallback of `GetInteger` (lines 193-196) is a parameter, `asDouble`. It is a floating-point parse and truncating cast.
- C#'s UTF-16 strings are modelled as sequences of Unicode scalar values (Dafny `char`), not of UTF-16 code units.
- Culture-sensitive behaviour is approximated:
  - `ToLower` lowers ASCII letters only;
  - `StartsWith(string)` (lines 75, 78, 92, and the `section.StartsWith("[")` of lines 128, 265 and 322 that `Store.LookupId` models) and `EndsWith("\"")` (line 92) compare characters exactly;
  - the default string order of `OrderBy` (line 299) is code-point order. This equals .NET's ordinal order, which compares UTF-16 code units, for characters below U+10000 only;
  - the case-insensitive `StartsWith("f", true, null)` is a test for `f` or `F`.
- `int.TryParse` is modelled for `NumberStyles.Integer` (white space, an optional sign, ASCII digits). Trailing NUL characters and culture-specific signs are not modelled.
- `Save`'s `ToDictionary` (line 299) is assumed to enumerate in the order it was filled, which `Dictionary` does in practice but does not promise.
- The `this[section, key]` indexer (lines 163-169) is not modelled. It is `GetValue(section, key, "")`.
- The constructors and the `CommentDelimiter` property (lines 29-46) are not modelled. The delimiter is a parameter of the parser, and a null delimiter is written `""`.
- The `int` counter of the duplicate-slot loops (lines 97-101, 275-278) is unbounded here. Overflow would need about 2^31 duplicates of one key.
- `Scripts/Runtime/Configurator.cs` is not part of this model. It is assembly reflection, logging and process-wide static state around the engine.
- RoundTrip.SaveThenLoad: only covers dictionaries whose entries survive the trip. Those conditions are listed above. A value wrapped in quotes, or with surrounding white space, comes back changed, and so does a key containing `=`.
- Chains.LoadThenAllValues: only covers files whose header sections and keys hold no `~`, and a looked-up identity without `~`; values and comments may hold any. In the source, a key literally named `k~2` is stored as a slot of `k`, so `GetAllValues` on `k` would list its value among the duplicates.
- Writer.SectionBetween: requires identities whose sections hold no `[`. A load can store others: the header `[x[y]` gives section `x[y`, which line 301 reads back as `x`. `Writer.BracketedSectionsInterleave` shows three such identities whose sections are not adjacent in ascending order.
- Writer.AscendingGroupsSections: requires sections without `[`, for the same reason. With them, a section can occur on both sides of another (`Writer.BracketedSectionsInterleave`).
- Writer.SaveWritesEachHeaderOnce: requires sections without `[`. Under the code-point order this model assumes for `OrderBy`, for the dictionary loaded from the headers `[x[y]`, `[x\]` and `[x]`, each followed by `k=...`, Save writes the header `[x]` twice. A reload then stores the first value under `[x]k` and the last under `[x]k~2`, so `GetValue("x", "k")` changes from the third value to the first. `Writer.SaveAfterLoad` still holds: Save does not throw on such a dictionary.
- Sections, keys and values are taken as non-null strings; Dafny strings cannot be null. In the source a null section makes `section.StartsWith` (lines 128, 265, 322) throw. A null value stored by `SetValue` makes a later `GetBoolean` throw at line 252, and `Save` writes it as `key=` (line 305), so a reload reads it as `""`.
- Store.MissThenAllValues: requires that slot 2 of the identity is unused. A dictionary edited by `SetValue` can hold a `~2` identity without its head, and GetAllValues would then list that value too.

=== FILE: chains.dfy ===
/** Duplicates in file order: after a load, GetAllValues on a key returns the
    values of that key's lines in the order the file states them, as long as
    no line carries a '~' that could make an identity look like a slot. */
module Chains {
  import opened Wrappers
  import opened Text
  import opened Slots
  import opened Parser
  import opened Store

  /** The values the entries state for identity `id`, in order. */
  function ValuesOf(es: seq<Entry>, id: string): (vs: seq<string>)
    ensures |vs| <= |es|
    decreases |es|
  {
    if |es| == 0 then []
    else (if es[0].id == id then [es[0].value] else []) + ValuesOf(es[1..], id)
  }

  /** `d` holds exactly the values `vs` for head `h`: the first under the
      head, the k-th under slot k, and no slot past the last. */
  ghost predicate Holds(d: Dict, h: string, vs: seq<string>)
  {
    && (|vs| == 0 <==> h !in d)
    && (|vs| > 0 ==> d[h] == vs[0])
    && (forall i :: 2 <= i <= |vs| ==> Slot(h, i) in d && d[Slot(h, i)] == vs[i - 1])
    && (forall i :: 2 <= i && |vs| < i ==> Slot(h, i) !in d)
  }

  /** The empty dictionary holds no value for any head. */
  lemma HoldsEmpty(h: string)
    ensures Holds(map[], h, [])
  {
  }

  /** What GetAllValues reads for a head is exactly what `d` holds for it. */
  lemma HoldsValuesAt(d: Dict, h: string, vs: seq<string>)
    requires Holds(d, h, vs)
    ensures ValuesAt(d, h) == if |vs| == 0 then None else Some(vs)
  {
    var r := ValuesAt(d, h);
    if r.Some? {
      var n := |r.value|;
      assert Slot(h, n + 1) !in d && Slot(h, |vs| + 1) !in d;
      assert n == |vs|;
      forall i | 1 <= i < n ensures r.value[i] == vs[i] {
        assert r.value[(i + 1) - 1] == d[Slot(h, i + 1)];
      }
      assert r.value == vs;
    }
  }

  /** A new value for head `h` lands right after the values `d` holds. */
  lemma AddEntryHolds(d: Dict, h: string, vs: seq<string>, v: string)
    requires TildeFree(h) && Holds(d, h, vs)
    ensures Holds(AddEntry(d, h, v), h, vs + [v])
  {
    var d', vs' := AddEntry(d, h, v), vs + [v];
    if h in d {
      var n := FreeSlot(d, h, 2);
      assert Slot(h, n) !in d && Slot(h, |vs| + 1) !in d;
      assert n == |vs| + 1;
      assert d' == d[Slot(h, n) := v];
      SlotIsNotHead(h, n, h);
      forall i | 2 <= i <= |vs'| ensures Slot(h, i) in d' && d'[Slot(h, i)] == vs'[i - 1] {
        if i != n {
          if Slot(h, i) == Slot(h, n) {
            SlotInjective(h, i, n);
          }
        }
      }
      forall i | 2 <= i && |vs'| < i ensures Slot(h, i) !in d' {
        if Slot(h, i) == Slot(h, n) {
          SlotInjective(h, i, n);
        }
      }
    } else {
      forall i | 2 <= i ensures Slot(h, i) !in d' {
        SlotIsNotHead(h, i, h);
      }
    }
  }

  /** A value for another '~'-free head leaves what `d` holds for `h` alone. */
  lemma AddEntryOtherHolds(d: Dict, h: string, vs: seq<string>, other: string, v: string)
    requires TildeFree(h) && TildeFree(other) && h != other && Holds(d, h, vs)
    ensures Holds(AddEntry(d, other, v), h, vs)
  {
    var k := if other in d then Slot(other, FreeSlot(d, other, 2)) else other;
    assert AddEntry(d, other, v) == d[k := v];
    if other in d {
      SlotIsNotHead(other, FreeSlot(d, other, 2), h);
    }
    forall i | 2 <= i ensures Slot(h, i) != k {
      if other in d {
        if Slot(h, i) == k {
          SlotsOfDistinctHeads(h, i, other, FreeSlot(d, other, 2));
        }
      } else {
        SlotIsNotHead(h, i, other);
      }
    }
  }

  /** Every entry names a '~'-free identity. */
  ghost predicate TildeFreeIds(es: seq<Entry>)
  {
    forall i :: 0 <= i < |es| ==> TildeFree(es[i].id)
  }

  /** Storing one entry appends the value it states for `h`, if any. */
  lemma AddEntryHoldsStep(acc: Dict, e: Entry, h: string, vs: seq<string>)
    requires TildeFree(h) && TildeFree(e.id) && Holds(acc, h, vs)
    ensures Holds(AddEntry(acc, e.id, e.value), h, vs + ValuesOf([e], h))
  {
    if e.id == h {
      AddEntryHolds(acc, h, vs, e.value);
    } else {
      assert vs + ValuesOf([e], h) == vs;
      AddEntryOtherHolds(acc, h, vs, e.id, e.value);
    }
  }

  lemma TildeFreeIdsTail(es: seq<Entry>)
    requires |es| > 0 && TildeFreeIds(es)
    ensures TildeFree(es[0].id) && TildeFreeIds(es[1..])
  {
    assert forall i :: 0 <= i < |es[1..]| ==> es[1..][i] == es[i + 1];
  }

  lemma ValuesOfCons(es: seq<Entry>, h: string)
    requires |es| > 0
    ensures ValuesOf(es, h) == ValuesOf([es[0]], h) + ValuesOf(es[1..], h)
  {
    assert ValuesOf([es[0]], h) == (if es[0].id == h then [es[0].value] else []) + ValuesOf([], h);
  }

  /** Storing entries appends, in order, the values they state for `h`. */
  lemma {:induction false} BuildHolds(acc: Dict, es: seq<Entry>, h: string, vs: seq<string>)
    requires TildeFree(h) && TildeFreeIds(es) && Holds(acc, h, vs)
    ensures Holds(Build(acc, es), h, vs + ValuesOf(es, h))
    decreases |es|
  {
    if |es| == 0 {
      assert vs + [] == vs;
    } else {
      var e := es[0];
      TildeFreeIdsTail(es);
      AddEntryHoldsStep(acc, e, h, vs);
      var vs' := vs + ValuesOf([e], h);
      BuildHolds(AddEntry(acc, e.id, e.value), es[1..], h, vs');
      ValuesOfCons(es, h);
      assert vs' + ValuesOf(es[1..], h) == vs + ValuesOf(es, h);
    }
  }

  /** A section and a line without '~' give a '~'-free identity. */
  lemma HeadIdTildeFree(section: string, key: string)
    requires '~' !in section && '~' !in key
    ensures TildeFree(HeadId(section, key))
  {
    var s := "[" + section + "]" + key;
    assert forall i :: 0 <= i < |s| ==> s[i] != '~';
    LowerKeepsOut(s, '~');
  }

  /** The section in force after `line`. */
  function SectionAfter(line: string, delim: string, section: string): (r: string)
  {
    match Classify(line, delim)
    case Header(s) => s
    case _ => section
  }

  /** The entries `line` states, when it does not throw. */
  function LineEntries(line: string, delim: string, section: string): (r: seq<Entry>)
  {
    match Classify(line, delim)
    case Pair(k, raw) =>
      (match Unquote(raw)
       case None => []
       case Some(v) => [Entry(HeadId(section, k), v)])
    case _ => []
  }

  /** Entries reads the first line, then the others in the section it leaves. */
  lemma EntriesStep(lines: seq<string>, delim: string, section: string)
    requires |lines| > 0 && Entries(lines, delim, section).Some?
    ensures var s := SectionAfter(lines[0], delim, section);
            && Entries(lines[1..], delim, s).Some?
            && Entries(lines, delim, section).value
               == LineEntries(lines[0], delim, section) + Entries(lines[1..], delim, s).value
  {
    var c := Classify(lines[0], delim);
    if !c.Pair? {
      assert LineEntries(lines[0], delim, section) == [];
    }
  }

  /** The section a header line names, or the key a key=value line names,
      holds no '~'; values, comments and other lines may hold any. */
  predicate NamesTildeFree(line: string, delim: string)
  {
    match Classify(line, delim)
    case Header(s) => '~' !in s
    case Pair(k, _) => '~' !in k
    case _ => true
  }

  /** A line without any '~' names no '~'. */
  lemma NoTildeNames(line: string, delim: string)
    requires '~' !in line
    ensures NamesTildeFree(line, delim)
  {
    match Classify(line, delim)
    case Header(s) =>
      ClassifyHeaderShape(line, delim);
    case Pair(k, raw) =>
      ClassifyPairShape(line, delim);
    case _ =>
  }

  /** A line naming no '~' keeps the section and its entries '~'-free. */
  lemma LineTildeFree(line: string, delim: string, section: string)
    requires '~' !in section && NamesTildeFree(line, delim)
    ensures '~' !in SectionAfter(line, delim, section)
    ensures TildeFreeIds(LineEntries(line, delim, section))
  {
    var c := Classify(line, delim);
    if c.Pair? {
      HeadIdTildeFree(section, c.key);
    }
  }

  lemma TildeFreeIdsConcat(a: seq<Entry>, b: seq<Entry>)
    requires TildeFreeIds(a) && TildeFreeIds(b)
    ensures TildeFreeIds(a + b)
  {
    assert forall i :: |a| <= i < |a + b| ==> (a + b)[i] == b[i - |a|];
  }

  /** The entries of lines naming no '~', read from a section without '~',
      name '~'-free identities. */
  lemma {:induction false} EntriesTildeFree(lines: seq<string>, delim: string, section: string)
    requires '~' !in section
    requires forall i :: 0 <= i < |lines| ==> NamesTildeFree(lines[i], delim)
    requires Entries(lines, delim, section).Some?
    ensures TildeFreeIds(Entries(lines, delim, section).value)
    decreases |lines|
  {
    if |lines| > 0 {
      var s := SectionAfter(lines[0], delim, section);
      EntriesStep(lines, delim, section);
      LineTildeFree(lines[0], delim, section);
      assert forall i :: 0 <= i < |lines[1..]| ==> lines[1..][i] == lines[i + 1];
      EntriesTildeFree(lines[1..], delim, s);
      TildeFreeIdsConcat(LineEntries(lines[0], delim, section), Entries(lines[1..], delim, s).value);
    }
  }

  /** The main result on duplicates: after loading a file whose headers and
      keys hold no '~', GetAllValues returns the values of the lines whose
      identity is the one it looks up, in file order, and None when there
      is no such line. For a section without '[' that identity is the
      parser's HeadId of the section and key (Store.LookupMatchesParse). */
  lemma LoadThenAllValues(lines: seq<string>, delim: string, section: string, key: string)
    requires forall i :: 0 <= i < |lines| ==> NamesTildeFree(lines[i], delim)
    requires ParseLines(lines, delim).Some?
    requires TildeFree(LookupId(section, key))
    ensures Entries(lines, delim, "").Some?
    ensures var vs := ValuesOf(Entries(lines, delim, "").value, LookupId(section, key));
            GetAllValues(ParseLines(lines, delim).value, section, key)
            == if |vs| == 0 then None else Some(vs)
  {
    ParseIsBuild(lines, delim, "", map[]);
    var es := Entries(lines, delim, "").value;
    var h := LookupId(section, key);
    EntriesTildeFree(lines, delim, "");
    HoldsEmpty(h);
    BuildHolds(map[], es, h, []);
    assert [] + ValuesOf(es, h) == ValuesOf(es, h);
    HoldsValuesAt(ParseLines(lines, delim).value, h, ValuesOf(es, h));
  }
}

=== FILE: lines.dfy ===
/** The file as text: StreamReader.ReadLine, which the parser calls until it
    returns null, and the "\n"-terminated lines that Save writes. */
module Lines {

  /** The characters ReadLine ends a line at: "\n", "\r", and "\r\n" as one. */
  predicate IsBreak(c: char)
  {
    c == '\n' || c == '\r'
  }

  predicate NoBreaks(s: string)
  {
    forall i :: 0 <= i < |s| ==> !IsBreak(s[i])
  }

  /** Position of the first line break, |s| when there is none. */
  function BreakAt(s: string): (r: nat)
    ensures r <= |s|
    ensures r < |s| ==> IsBreak(s[r])
    ensures NoBreaks(s[..r])
    decreases |s|
  {
    if |s| == 0 || IsBreak(s[0]) then 0 else 1 + BreakAt(s[1..])
  }

  /** The successive results of ReadLine on `text`: a final line without
      terminator is still returned, and a final terminator does not start an
      empty line. */
  function ReadLines(text: string): (ls: seq<string>)
    ensures forall i :: 0 <= i < |ls| ==> NoBreaks(ls[i])
    decreases |text|
  {
    if |text| == 0 then []
    else
      var i := BreakAt(text);
      var rest :=
        if i == |text| then []
        else if text[i] == '\r' && i + 1 < |text| && text[i + 1] == '\n' then text[i + 2..]
        else text[i + 1..];
      [text[..i]] + ReadLines(rest)
  }

  /** Each line followed by "\n", as Save builds its output. */
  function JoinLines(ls: seq<string>): (text: string)
    ensures |text| >= |ls|
  {
    if |ls| == 0 then "" else ls[0] + "\n" + JoinLines(ls[1..])
  }

  /** Reading back the text Save writes yields the lines it wrote, as long as
      no line holds a line break of its own. */
  lemma {:induction false} ReadJoinLines(ls: seq<string>)
    requires forall i :: 0 <= i < |ls| ==> NoBreaks(ls[i])
    ensures ReadLines(JoinLines(ls)) == ls
  {
    if |ls| > 0 {
      var l, rest := ls[0], JoinLines(ls[1..]);
      var text := l + "\n" + rest;
      assert text[|l|] == '\n';
      var i := BreakAt(text);
      assert i == |l|;
      assert text[..i] == l;
      assert text[i + 1..] == rest;
      ReadJoinLines(ls[1..]);
    }
  }

  /** ReadLine ends a line at "\n", at "\r\n" taken as one terminator, and
      at a "\r" that no "\n" follows. */
  lemma ReadLinesStep(l: string, t: string, rest: string)
    requires NoBreaks(l)
    requires t == "\n" || t == "\r\n" || (t == "\r" && (|rest| == 0 || rest[0] != '\n'))
    ensures ReadLines(l + t + rest) == [l] + ReadLines(rest)
  {
    var text := l + t + rest;
    assert text[|l|] == t[0];
    assert BreakAt(text) == |l|;
    assert text[..|l|] == l;
    if t == "\r\n" {
      assert text[|l| + 1] == '\n';
      assert text[|l| + 2..] == rest;
    } else {
      assert text[|l| + 1..] == rest;
    }
  }

  /** A last line without terminator is still read. */
  lemma ReadLinesLast(l: string)
    requires |l| > 0 && NoBreaks(l)
    ensures ReadLines(l) == [l]
  {
    assert BreakAt(l) == |l|;
    assert l[..|l|] == l;
  }
}

=== FILE: numbers.dfy ===
/** Decimal text of integers: Int32.ToString(), Int32.TryParse() and the
    non-negative decimals used for the "~N" duplicate suffixes. */
module Numbers {
  import opened Wrappers
  import opened Text

  /** The range of the C# `int`. */
  const MinInt32: int := -0x8000_0000
  const MaxInt32: int := 0x7FFF_FFFF

  type Int32 = x: int | MinInt32 <= x <= MaxInt32

  predicate IsDigit(c: char)
  {
    '0' <= c <= '9'
  }

  predicate AllDigits(s: string)
  {
    forall i :: 0 <= i < |s| ==> IsDigit(s[i])
  }

  function DigitChar(d: nat): (c: char)
    requires d < 10
    ensures IsDigit(c)
  {
    (d + '0' as int) as char
  }

  /** Decimal digits of `n`, most significant first, no leading zero. */
  function NatToString(n: nat): (r: string)
    ensures |r| >= 1 && AllDigits(r)
    decreases n
  {
    if n < 10 then [DigitChar(n)] else NatToString(n / 10) + [DigitChar(n % 10)]
  }

  /** The number a string of decimal digits denotes. */
  function DigitsValue(s: string): (r: nat)
    requires AllDigits(s)
    decreases |s|
  {
    if |s| == 0 then 0 else 10 * DigitsValue(s[..|s| - 1]) + (s[|s| - 1] as int - '0' as int)
  }

  /** Reading back the digits of `n` gives `n`. */
  lemma {:induction false} NatToStringRoundTrip(n: nat)
    ensures DigitsValue(NatToString(n)) == n
    decreases n
  {
    if n >= 10 {
      NatToStringRoundTrip(n / 10);
      var s := NatToString(n);
      assert s[..|s| - 1] == NatToString(n / 10);
    }
  }

  /** Different numbers have different decimal texts. */
  lemma NatToStringInjective(a: nat, b: nat)
    requires NatToString(a) == NatToString(b)
    ensures a == b
  {
    NatToStringRoundTrip(a);
    NatToStringRoundTrip(b);
  }

  /** Int32.ToString(): an optional '-' followed by the decimal digits. */
  function IntToString(n: int): (r: string)
    ensures |r| >= 1
  {
    if n < 0 then "-" + NatToString(-n) else NatToString(n)
  }

  /** Int32.TryParse(s) under NumberStyles.Integer: optional white space,
      an optional leading '+' or '-', one or more decimal digits, optional
      white space; None when the text is not of that shape or the number
      does not fit in an `int`. */
  function ParseInt32(s: string): (r: Option<Int32>)
  {
    ParseSigned(StripEnd(StripStart(s, NumberSpace), NumberSpace))
  }

  /** Int32.TryParse on text already stripped of white space. */
  function ParseSigned(t: string): (r: Option<Int32>)
  {
    var signed := |t| > 0 && (t[0] == '-' || t[0] == '+');
    var digits := if signed then t[1..] else t;
    if |digits| == 0 || !AllDigits(digits) then None
    else
      var v: int := if signed && t[0] == '-' then -(DigitsValue(digits) as int) else DigitsValue(digits);
      if MinInt32 <= v <= MaxInt32 then Some(v) else None
  }

  /** Int32.TryParse reads back what Int32.ToString wrote. */
  lemma ParseIntToString(n: Int32)
    ensures ParseInt32(IntToString(n)) == Some(n)
  {
    var s := IntToString(n);
    var m: nat := if n < 0 then -(n as int) else n;
    var digits := NatToString(m);
    assert StripStart(s, NumberSpace) == s;
    assert StripEnd(s, NumberSpace) == s;
    if n < 0 {
      assert s[1..] == digits;
    }
    NatToStringRoundTrip(m);
  }

  /** A number beyond the range of `int`, on either side, is rejected, so
      GetInteger falls back to its other parse. */
  lemma ParseInt32Overflow(n: int)
    requires n < MinInt32 || n > MaxInt32
    ensures ParseInt32(IntToString(n)) == None
  {
    var s := IntToString(n);
    var m: nat := if n < 0 then -n else n;
    NatToStringRoundTrip(m);
    assert s[0] != ' ';
    assert StripStart(s, NumberSpace) == s;
    assert StripEnd(s, NumberSpace) == s;
    if n < 0 {
      assert s[1..] == NatToString(m);
    }
  }

  /** Stripping a prefix of `sp` characters in front of a text that does
      not start with one. */
  lemma {:induction false} StripStartPad(a: string, y: string, sp: Space)
    requires forall i :: 0 <= i < |a| ==> IsSpace(a[i], sp)
    requires |y| > 0 && !IsSpace(y[0], sp)
    ensures StripStart(a + y, sp) == y
    decreases |a|
  {
    if |a| == 0 {
      assert a + y == y;
    } else {
      assert (a + y)[1..] == a[1..] + y;
      StripStartPad(a[1..], y, sp);
    }
  }

  /** Stripping a suffix of `sp` characters behind a text that does not end
      with one. */
  lemma {:induction false} StripEndPad(y: string, b: string, sp: Space)
    requires forall i :: 0 <= i < |b| ==> IsSpace(b[i], sp)
    requires |y| > 0 && !IsSpace(y[|y| - 1], sp)
    ensures StripEnd(y + b, sp) == y
    decreases |b|
  {
    if |b| == 0 {
      assert y + b == y;
    } else {
      assert (y + b)[..|y + b| - 1] == y + b[..|b| - 1];
      StripEndPad(y, b[..|b| - 1], sp);
    }
  }

  /** The text of a number neither starts nor ends with white space. */
  lemma IntToStringUnpadded(n: int)
    ensures var x := IntToString(n);
            !IsNumberWhite(x[0]) && !IsNumberWhite(x[|x| - 1])
  {
    var m: nat := if n < 0 then -n else n;
    var digits := NatToString(m);
    assert IsDigit(digits[0]) && IsDigit(digits[|digits| - 1]);
    if n < 0 {
      assert IntToString(n) == "-" + digits;
    }
  }

  /** The text of a number, already free of white space, parses back. */
  lemma ParseSignedToString(n: Int32)
    ensures ParseSigned(IntToString(n)) == Some(n)
  {
    var x := IntToString(n);
    IntToStringUnpadded(n);
    assert StripStart(x, NumberSpace) == x;
    assert StripEnd(x, NumberSpace) == x;
    ParseIntToString(n);
  }

  /** White space around the number is skipped. */
  lemma ParseInt32Padded(n: Int32, a: string, b: string)
    requires forall i :: 0 <= i < |a| ==> IsNumberWhite(a[i])
    requires forall i :: 0 <= i < |b| ==> IsNumberWhite(b[i])
    ensures ParseInt32(a + IntToString(n) + b) == Some(n)
  {
    var x := IntToString(n);
    IntToStringUnpadded(n);
    assert a + x + b == a + (x + b);
    StripStartPad(a, x + b, NumberSpace);
    StripEndPad(x, b, NumberSpace);
    ParseSignedToString(n);
  }
}

=== FILE: ordering.dfy ===
/** Code-point order on strings and the ascending enumeration of a set of
    strings: the `OrderBy(kvp => kvp.Key)` that Save applies to the
    dictionary, with the culture-sensitive default comparer approximated by
    code-point order. Below U+10000 this is .NET's ordinal order, which
    compares UTF-16 code units. */
module Ordering {

  /** `a` sorts strictly before `b`: at the first difference `a` has the
      smaller character, or `a` is a proper prefix of `b`. */
  predicate Below(a: string, b: string)
    decreases |a|
  {
    |b| > 0 && (|a| == 0 || a[0] < b[0] || (a[0] == b[0] && Below(a[1..], b[1..])))
  }

  lemma BelowIrreflexive(a: string)
    ensures !Below(a, a)
  {
  }

  lemma {:induction false} BelowTransitive(a: string, b: string, c: string)
    requires Below(a, b) && Below(b, c)
    ensures Below(a, c)
    decreases |a|
  {
    if |a| > 0 && a[0] == b[0] && b[0] == c[0] {
      BelowTransitive(a[1..], b[1..], c[1..]);
    }
  }

  lemma {:induction false} BelowTotal(a: string, b: string)
    ensures a == b || Below(a, b) || Below(b, a)
    decreases |a|
  {
    if |a| > 0 && |b| > 0 && a[0] == b[0] {
      BelowTotal(a[1..], b[1..]);
      if a[1..] == b[1..] {
        assert a == [a[0]] + a[1..] && b == [b[0]] + b[1..];
      }
    }
  }

  lemma {:induction false} BelowAsymmetric(a: string, b: string)
    ensures !(Below(a, b) && Below(b, a))
    decreases |a|
  {
    if |a| > 0 && |b| > 0 && a[0] == b[0] {
      BelowAsymmetric(a[1..], b[1..]);
    }
  }

  lemma BelowAsymmetricAll()
    ensures forall a, b :: Below(a, b) ==> !Below(b, a)
  {
    forall a, b ensures Below(a, b) ==> !Below(b, a) {
      BelowAsymmetric(a, b);
    }
  }

  /** `m` is the smallest element of `s`. */
  predicate IsLeast(m: string, s: set<string>)
  {
    m in s && forall x :: x in s && x != m ==> Below(m, x)
  }

  /** Every finite non-empty set of strings has a smallest element. */
  lemma {:induction false} LeastExists(s: set<string>)
    requires s != {}
    ensures exists m :: IsLeast(m, s)
    decreases |s|
  {
    var y :| y in s;
    if s == {y} {
      assert IsLeast(y, s);
    } else {
      LeastExists(s - {y});
      var m :| IsLeast(m, s - {y});
      BelowTotal(m, y);
      if Below(m, y) {
        assert IsLeast(m, s);
      } else {
        forall x | x in s && x != y
          ensures Below(y, x)
        {
          if x != m {
            BelowTransitive(y, m, x);
          }
        }
        assert IsLeast(y, s);
      }
    }
  }

  function Least(s: set<string>): (m: string)
    requires s != {}
    ensures IsLeast(m, s)
  {
    LeastExists(s);
    BelowAsymmetricAll();
    var m :| IsLeast(m, s);
    m
  }

  predicate Ascending(ks: seq<string>)
  {
    forall i, j :: 0 <= i < j < |ks| ==> Below(ks[i], ks[j])
  }

  /** The elements of `s` in ascending order, each once. */
  function SortSet(s: set<string>): (ks: seq<string>)
    ensures Ascending(ks)
    ensures forall k :: k in ks <==> k in s
    ensures |ks| == |s|
    decreases |s|
  {
    if s == {} then []
    else
      var m := Least(s);
      var rest := SortSet(s - {m});
      assert forall j :: 0 <= j < |rest| ==> rest[j] in s - {m};
      [m] + rest
  }

  /** An ascending sequence repeats no element. */
  lemma AscendingDistinct(ks: seq<string>)
    requires Ascending(ks)
    ensures forall i, j :: 0 <= i < j < |ks| ==> ks[i] != ks[j]
  {
    forall i, j | 0 <= i < j < |ks|
      ensures ks[i] != ks[j]
    {
      BelowIrreflexive(ks[i]);
    }
  }
}

=== FILE: parser.dfy ===
/** The parse loop of the IniFile.TheFile setter: each line is trimmed and
    classified; section headers move the current section; key=value lines are
    stored under the lower-cased "[section]key" identity, a repeated identity
    going to its first unused "~N" slot. */
module Parser {
  import opened Wrappers
  import opened Text
  import opened Lines
  import opened Slots

  /** What one line of the file is, after trimming. */
  datatype Line =
    | Blank
    | Comment
    | Header(section: string)
    | Pair(key: string, value: string)
    | Other

  /** A comment starts with a non-empty delimiter ("" stands for a null one). */
  predicate IsComment(t: string, delim: string)
  {
    |delim| > 0 && StartsWith(t, delim)
  }

  /** The classification of one line; section, key and raw value come out
      trimmed, and the key stops at the first '='. */
  function Classify(line: string, delim: string): (c: Line)
  {
    var t := Trim(line);
    if |t| == 0 then Blank
    else if IsComment(t, delim) then Comment
    else if t[0] == '[' && ']' in t then Header(Trim(t[1..IndexOf(t, ']')]))
    else if '=' in t then
      var i := IndexOf(t, '=');
      Pair(Trim(t[..i]), Trim(t[i + 1..]))
    else Other
  }

  /** A line is blank exactly when it is all white space. */
  lemma ClassifyBlank(line: string, delim: string)
    ensures Classify(line, delim).Blank? <==> forall i :: 0 <= i < |line| ==> IsWhiteSpace(line[i])
  {
    TrimEmpty(line);
  }

  /** A section has no ']', comes out trimmed and is made of the line's
      characters. */
  lemma ClassifyHeaderShape(line: string, delim: string)
    requires Classify(line, delim).Header?
    ensures var s := Classify(line, delim).section;
            ']' !in s && Trimmed(s) && forall ch :: ch in s ==> ch in line
  {
    var t := Trim(line);
    TrimKeepsChars(line);
    IndexOfFirst(t, ']');
    assert |t| > 0 && t[0] == '[' && ']' in t;
    var inner := t[1..IndexOf(t, ']')];
    assert Classify(line, delim).section == Trim(inner);
    assert forall ch :: ch in inner ==> ch in t;
    assert ']' !in inner;
    TrimKeepsChars(inner);
  }

  /** A key has no '=', key and value come out trimmed, and the key is made
      of the line's characters. */
  lemma ClassifyPairShape(line: string, delim: string)
    requires Classify(line, delim).Pair?
    ensures var c := Classify(line, delim);
            '=' !in c.key && Trimmed(c.key) && Trimmed(c.value) && forall ch :: ch in c.key ==> ch in line
  {
    var t := Trim(line);
    TrimKeepsChars(line);
    IndexOfFirst(t, '=');
    assert |t| > 0 && !(t[0] == '[' && ']' in t) && '=' in t;
    var key := t[..IndexOf(t, '=')];
    assert Classify(line, delim).key == Trim(key);
    assert forall ch :: ch in key ==> ch in t;
    assert '=' !in key;
    TrimKeepsChars(key);
  }

  /** A header line as Save writes it is read back as that header. */
  lemma ClassifyHeaderLine(s: string, delim: string)
    requires ']' !in s && Trimmed(s)
    requires !IsComment("[" + s + "]", delim)
    ensures Classify("[" + s + "]", delim) == Header(s)
  {
    var t := "[" + s + "]";
    assert Trimmed(t);
    IndexOfAt("[" + s, ']', "");
    assert t == "[" + s + [']'] + "";
    assert t[1..|s| + 1] == s;
  }

  /** A "key=value" line as Save writes it is read back as that pair. */
  lemma ClassifyPairLine(k: string, v: string, delim: string)
    requires '=' !in k && Trimmed(k) && Trimmed(v)
    requires |k| == 0 || k[0] != '['
    requires !IsComment(k + "=" + v, delim)
    ensures Classify(k + "=" + v, delim) == Pair(k, v)
  {
    var t := k + "=" + v;
    PairLineParts(k, v);
    assert Trim(t) == t;
    assert t[0] != '[';
    assert IndexOf(t, '=') == |k|;
  }

  /** The pieces of "key=value": trimmed as a whole, split at its first '='. */
  lemma PairLineParts(k: string, v: string)
    requires '=' !in k && Trimmed(k) && Trimmed(v)
    ensures var t := k + "=" + v;
            && Trimmed(t) && '=' in t && IndexOf(t, '=') == |k|
            && t[..|k|] == k && t[|k| + 1..] == v
            && (|k| > 0 ==> t[0] == k[0]) && (|k| == 0 ==> t[0] == '=')
  {
    var t := k + "=" + v;
    assert t[|k|] == '=';
    IndexOfAt(k, '=', v);
    assert t == k + ['='] + v;
  }

  /** A line is a comment exactly when its trimmed text is non-empty and
      starts with a non-empty delimiter. */
  lemma ClassifyComment(line: string, delim: string)
    ensures Classify(line, delim).Comment? <==> |Trim(line)| > 0 && IsComment(Trim(line), delim)
  {
  }

  /** The value both starts and ends with a double quote. */
  predicate QuoteWrapped(v: string)
  {
    |v| >= 1 && v[0] == '"' && v[|v| - 1] == '"'
  }

  /** Quote stripping: a wrapped value loses exactly its outer quotes. The
      value made of one '"' passes both tests and makes Substring throw,
      which is the None. */
  function Unquote(v: string): (r: Option<string>)
    ensures r.None? <==> v == "\""
    ensures r.Some? && QuoteWrapped(v) ==> v == "\"" + r.value + "\""
    ensures !QuoteWrapped(v) ==> r == Some(v)
  {
    if QuoteWrapped(v) then
      if |v| < 2 then None else Some(v[1..|v| - 1])
    else Some(v)
  }

  /** The identity the parser stores a key under. */
  function HeadId(section: string, key: string): (id: string)
  {
    Lower("[" + section + "]" + key)
  }

  /** Storing one parsed value: never overwrites, adds exactly one identity,
      which is the head if unused and otherwise its first unused slot from 2. */
  function AddEntry(d: Dict, head: string, v: string): (r: Dict)
    ensures d.Keys <= r.Keys && |r| == |d| + 1
    ensures forall k :: k in d ==> r[k] == d[k]
    ensures head !in d ==> r == d[head := v]
    ensures head in d ==> exists n: nat :: n >= 2 && Slot(head, n) !in d && r == d[Slot(head, n) := v]
                                           && forall i :: 2 <= i < n ==> Slot(head, i) in d
  {
    if head in d then d[Slot(head, FreeSlot(d, head, 2)) := v] else d[head := v]
  }

  /** The parse loop from a given section and dictionary on; None when a
      line throws. */
  function ParseFrom(lines: seq<string>, delim: string, section: string, acc: Dict): (r: Option<Dict>)
    ensures r.Some? ==> acc.Keys <= r.value.Keys && forall k :: k in acc ==> r.value[k] == acc[k]
    decreases |lines|
  {
    if |lines| == 0 then Some(acc)
    else
      match Classify(lines[0], delim)
      case Header(s) => ParseFrom(lines[1..], delim, s, acc)
      case Pair(k, raw) =>
        (match Unquote(raw)
         case None => None
         case Some(v) => ParseFrom(lines[1..], delim, section, AddEntry(acc, HeadId(section, k), v)))
      case _ => ParseFrom(lines[1..], delim, section, acc)
  }

  /** Loading a file's lines into an empty dictionary, starting in section "". */
  function ParseLines(lines: seq<string>, delim: string): (r: Option<Dict>)
  {
    ParseFrom(lines, delim, "", map[])
  }

  /** Loading a file's text. */
  function Parse(text: string, delim: string): (r: Option<Dict>)
  {
    ParseLines(ReadLines(text), delim)
  }

  /** One key=value line as the file states it: identity and unquoted value. */
  datatype Entry = Entry(id: string, value: string)

  /** The key=value lines of a file in file order, with the section in force
      at each; None when a line throws. */
  function Entries(lines: seq<string>, delim: string, section: string): (r: Option<seq<Entry>>)
    decreases |lines|
  {
    if |lines| == 0 then Some([])
    else
      match Classify(lines[0], delim)
      case Header(s) => Entries(lines[1..], delim, s)
      case Pair(k, raw) =>
        (match Unquote(raw)
         case None => None
         case Some(v) =>
           (match Entries(lines[1..], delim, section)
            case None => None
            case Some(es) => Some([Entry(HeadId(section, k), v)] + es)))
      case _ => Entries(lines[1..], delim, section)
  }

  /** Storing entries one after the other. */
  function Build(acc: Dict, es: seq<Entry>): (r: Dict)
    ensures acc.Keys <= r.Keys && |r| == |acc| + |es|
    ensures forall k :: k in acc ==> r[k] == acc[k]
    decreases |es|
  {
    if |es| == 0 then acc else Build(AddEntry(acc, es[0].id, es[0].value), es[1..])
  }

  /** The parse loop stores, in order, exactly the entries the file states. */
  lemma {:induction false} ParseIsBuild(lines: seq<string>, delim: string, section: string, acc: Dict)
    ensures Entries(lines, delim, section).None? <==> ParseFrom(lines, delim, section, acc).None?
    ensures Entries(lines, delim, section).Some? ==>
              ParseFrom(lines, delim, section, acc) == Some(Build(acc, Entries(lines, delim, section).value))
    decreases |lines|
  {
    if |lines| > 0 {
      match Classify(lines[0], delim)
      case Header(s) => ParseIsBuild(lines[1..], delim, s, acc);
      case Pair(k, raw) =>
        if Unquote(raw).Some? {
          var e := Entry(HeadId(section, k), Unquote(raw).value);
          ParseIsBuild(lines[1..], delim, section, AddEntry(acc, e.id, e.value));
          var rest := Entries(lines[1..], delim, section);
          if rest.Some? {
            assert ([e] + rest.value)[1..] == rest.value;
          }
        }
      case _ => ParseIsBuild(lines[1..], delim, section, acc);
    }
  }

  /** Each key=value line of a file adds exactly one identity. */
  lemma ParseAddsOnePerPair(lines: seq<string>, delim: string)
    requires ParseLines(lines, delim).Some?
    ensures Entries(lines, delim, "").Some?
    ensures |ParseLines(lines, delim).value| == |Entries(lines, delim, "").value|
  {
    ParseIsBuild(lines, delim, "", map[]);
  }

  /** The key=value line whose value is the lone '"' that makes Substring
      throw. */
  predicate LoneQuote(line: string, delim: string)
  {
    var c := Classify(line, delim);
    c.Pair? && c.value == "\""
  }

  /** Some line of `lines` is a key=value line with the lone value '"'. */
  predicate HasLoneQuote(lines: seq<string>, delim: string)
    decreases |lines|
  {
    |lines| > 0 && (LoneQuote(lines[0], delim) || HasLoneQuote(lines[1..], delim))
  }

  lemma {:induction false} HasLoneQuoteIndex(lines: seq<string>, delim: string)
    ensures HasLoneQuote(lines, delim) <==> exists i :: 0 <= i < |lines| && LoneQuote(lines[i], delim)
    decreases |lines|
  {
    if |lines| > 0 {
      HasLoneQuoteIndex(lines[1..], delim);
      assert forall i :: 1 <= i < |lines| ==> lines[i] == lines[1..][i - 1];
    }
  }

  /** The parse loop fails exactly when some key=value line has the lone
      value '"', whatever the section and dictionary it starts from. */
  lemma {:induction false} ParseFromFails(lines: seq<string>, delim: string, section: string, acc: Dict)
    ensures ParseFrom(lines, delim, section, acc).None? <==> HasLoneQuote(lines, delim)
    decreases |lines|
  {
    if |lines| > 0 {
      var c := Classify(lines[0], delim);
      if c.Header? {
        ParseFromFails(lines[1..], delim, c.section, acc);
      } else if c.Pair? {
        if c.value != "\"" {
          var v := Unquote(c.value).value;
          ParseFromFails(lines[1..], delim, section, AddEntry(acc, HeadId(section, c.key), v));
        }
      } else {
        ParseFromFails(lines[1..], delim, section, acc);
      }
    }
  }

  /** Loading a file's lines fails exactly when one of them is a key=value
      line with the lone value '"'. */
  lemma ParseFails(lines: seq<string>, delim: string)
    ensures ParseLines(lines, delim).None? <==> exists i :: 0 <= i < |lines| && LoneQuote(lines[i], delim)
  {
    ParseFromFails(lines, delim, "", map[]);
    HasLoneQuoteIndex(lines, delim);
  }
}

=== FILE: roundtrip.dfy ===
/** Loading the text Save writes gives back the dictionary that was saved,
    for dictionaries whose entries survive the trip: sections without
    brackets, keys without '=' or ']' that do not open with '[', no white
    space around keys and values, no line breaks, no quote-wrapped values,
    no emitted line that reads as a comment, and identities already in
    lower case. */
module RoundTrip {
  import opened Wrappers
  import opened Text
  import opened Lines
  import opened Ordering
  import opened Slots
  import opened Parser
  import opened Writer

  /** The section of a bracketed identity: between the '[' and the first ']'. */
  function KeySection(k: string): (r: string)
    requires Bracketed(k)
  {
    k[1..IndexOf(k, ']')]
  }

  /** The key of a bracketed identity: everything after the first ']'. */
  function KeyName(k: string): (r: string)
    requires Bracketed(k)
  {
    k[IndexOf(k, ']') + 1..]
  }

  /** A section, key and value that Save writes and the parser reads back
      as they were. */
  predicate CleanParts(sec: string, name: string, v: string, delim: string)
  {
    && ']' !in name && '=' !in name && (|name| == 0 || name[0] != '[')
    && Trimmed(sec) && Trimmed(name) && Trimmed(v)
    && NoBreaks(sec) && NoBreaks(name) && NoBreaks(v)
    && !QuoteWrapped(v)
    && !IsComment("[" + sec + "]", delim) && !IsComment(name + "=" + v, delim)
  }

  /** Identity `k` with value `v` comes back from Save and a reload unchanged. */
  predicate Clean(k: string, v: string, delim: string)
  {
    Bracketed(k) && Lower(k) == k && CleanParts(KeySection(k), KeyName(k), v, delim)
  }

  lemma CleanSplit(k: string, v: string, delim: string)
    requires Clean(k, v, delim)
    ensures SectionOf(k) == Some(KeySection(k))
    ensures NameOf(k) == Some(KeyName(k))
    ensures HeadId(KeySection(k), KeyName(k)) == k
  {
    BracketedSection(k);
    var name := KeyName(k);
    assert name[..|name|] == name;
  }

  lemma CleanHeaderLine(sec: string, name: string, v: string, delim: string)
    requires CleanParts(sec, name, v, delim) && ']' !in sec
    ensures Classify(Render(Header(sec)), delim) == Header(sec)
  {
    assert Render(Header(sec)) == "[" + sec + "]";
    ClassifyHeaderLine(sec, delim);
  }

  lemma CleanPairLine(sec: string, name: string, v: string, delim: string)
    requires CleanParts(sec, name, v, delim)
    ensures Classify(Render(Pair(name, v)), delim) == Pair(name, v)
    ensures Unquote(v) == Some(v)
  {
    assert Render(Pair(name, v)) == name + "=" + v;
    ClassifyPairLine(name, v, delim);
  }

  lemma HeaderNoBreaks(sec: string)
    requires NoBreaks(sec)
    ensures LinesNoBreaks([Header(sec)])
  {
    NoBreaksConcat("[", sec);
    NoBreaksConcat("[" + sec, "]");
  }

  lemma PairNoBreaks(name: string, v: string)
    requires NoBreaks(name) && NoBreaks(v)
    ensures LinesNoBreaks([Pair(name, v)])
  {
    NoBreaksConcat(name, "=");
    NoBreaksConcat(name + "=", v);
  }

  lemma NoBreaksConcat(a: string, b: string)
    requires NoBreaks(a) && NoBreaks(b)
    ensures NoBreaks(a + b)
  {
    assert forall i :: |a| <= i < |a + b| ==> (a + b)[i] == b[i - |a|];
  }

  lemma MapOfKeys(keys: seq<string>, d: Dict)
    requires forall k :: k in keys <==> k in d
    ensures map[] + (map k | k in keys :: d[k]) == d
  {
    assert (map k | k in keys :: d[k]) == d;
  }

  lemma {:induction false} RenderAllConcat(a: seq<Line>, b: seq<Line>)
    ensures RenderAll(a + b) == RenderAll(a) + RenderAll(b)
    decreases |a|
  {
    if |a| == 0 {
      assert a + b == b;
    } else {
      assert (a + b)[1..] == a[1..] + b;
      RenderAllConcat(a[1..], b);
    }
  }

  /** A header line moves the parser to its section. */
  lemma ParseHeaderLine(h: string, rest: seq<string>, delim: string, section: string, sec: string, acc: Dict)
    requires Classify(h, delim) == Header(sec)
    ensures ParseFrom([h] + rest, delim, section, acc) == ParseFrom(rest, delim, sec, acc)
  {
    assert ([h] + rest)[1..] == rest;
  }

  /** A key=value line stores its value. */
  lemma ParsePairLine(p: string, rest: seq<string>, delim: string, section: string, acc: Dict,
                      name: string, v: string)
    requires Classify(p, delim) == Pair(name, v) && Unquote(v) == Some(v)
    ensures ParseFrom([p] + rest, delim, section, acc)
            == ParseFrom(rest, delim, section, AddEntry(acc, HeadId(section, name), v))
  {
    assert ([p] + rest)[1..] == rest;
  }

  lemma MapOfKeysStep(keys: seq<string>, d: Dict, acc: Dict)
    requires |keys| > 0 && forall i :: 0 <= i < |keys| ==> keys[i] in d
    ensures acc[keys[0] := d[keys[0]]] + (map k | k in keys[1..] :: d[k]) == acc + (map k | k in keys :: d[k])
  {
  }

  lemma MapOfNoKeys(keys: seq<string>, d: Dict, acc: Dict)
    requires forall i :: 0 <= i < |keys| ==> keys[i] in d
    ensures acc + (map k | k in keys :: d[k]) == acc || |keys| > 0
  {
  }

  /** Every identity of `keys` is in `d` and clean with its value. */
  ghost predicate AllClean(keys: seq<string>, d: Dict, delim: string)
    decreases |keys|
  {
    |keys| > 0 ==> keys[0] in d && Clean(keys[0], d[keys[0]], delim) && AllClean(keys[1..], d, delim)
  }

  lemma {:induction false} AllCleanWritable(keys: seq<string>, d: Dict, delim: string)
    requires AllClean(keys, d, delim)
    ensures (forall i :: 0 <= i < |keys| ==> keys[i] in d) && AllWritable(keys)
    decreases |keys|
  {
    if |keys| > 0 {
      BracketedSection(keys[0]);
      AllCleanWritable(keys[1..], d, delim);
      assert forall i :: 1 <= i < |keys| ==> keys[i] == keys[1..][i - 1];
    }
  }

  lemma {:induction false} AllCleanOf(keys: seq<string>, d: Dict, delim: string)
    requires forall i :: 0 <= i < |keys| ==> keys[i] in d && Clean(keys[i], d[keys[i]], delim)
    ensures AllClean(keys, d, delim)
    decreases |keys|
  {
    if |keys| > 0 {
      assert forall i :: 0 <= i < |keys[1..]| ==> keys[1..][i] == keys[i + 1];
      AllCleanOf(keys[1..], d, delim);
    }
  }

  /** How Save splits a clean identity. */
  lemma CleanEntry(k: string, v: string, delim: string)
    requires Clean(k, v, delim)
    ensures Writable(k)
    ensures SectionOf(k) == Some(KeySection(k)) && NameOf(k) == Some(KeyName(k))
    ensures HeadId(KeySection(k), KeyName(k)) == k
  {
    BracketedSection(k);
    CleanSplit(k, v, delim);
  }

  /** The two lines Save may write for a clean identity hold no break. */
  lemma CleanEntryNoBreaks(k: string, v: string, delim: string)
    requires Clean(k, v, delim)
    ensures LinesNoBreaks([Header(KeySection(k))]) && LinesNoBreaks([Pair(KeyName(k), v)])
  {
    HeaderNoBreaks(KeySection(k));
    PairNoBreaks(KeyName(k), v);
  }

  /** The lines Save writes for a clean identity `k` after an entry of
      section `last`. */
  function EntryLines(k: string, v: string, last: string): (r: seq<Line>)
    requires Bracketed(k)
  {
    (if KeySection(k) != last then [Header(KeySection(k))] else []) + [Pair(KeyName(k), v)]
  }

  /** The parser, in section `last`, reads the lines Save writes for a clean
      identity as one new entry under that identity, in the identity's
      section. */
  lemma ParseCleanEntry(k: string, v: string, delim: string, last: string, rest: seq<Line>, acc: Dict)
    requires Clean(k, v, delim) && k !in acc
    ensures ParseFrom(RenderAll(EntryLines(k, v, last) + rest), delim, last, acc)
            == ParseFrom(RenderAll(rest), delim, KeySection(k), acc[k := v])
  {
    var sec, name := KeySection(k), KeyName(k);
    BracketedSection(k);
    CleanSplit(k, v, delim);
    CleanHeaderLine(sec, name, v, delim);
    CleanPairLine(sec, name, v, delim);
    var header := if sec != last then [Header(sec)] else [];
    assert EntryLines(k, v, last) + rest == header + [Pair(name, v)] + rest;
    ParseEntryLines(header, Pair(name, v), rest, delim, last, sec, name, v, acc);
  }

  /** No line of `ls` holds a line break. */
  ghost predicate LinesNoBreaks(ls: seq<Line>)
  {
    forall i :: 0 <= i < |ls| ==> NoBreaks(Render(ls[i]))
  }

  lemma LinesNoBreaksConcat(a: seq<Line>, b: seq<Line>)
    requires LinesNoBreaks(a) && LinesNoBreaks(b)
    ensures LinesNoBreaks(a + b)
  {
    assert forall i :: |a| <= i < |a + b| ==> (a + b)[i] == b[i - |a|];
  }

  /** No line Save writes for clean identities holds a line break. */
  lemma {:induction false} EmitNoBreaks(keys: seq<string>, d: Dict, delim: string, last: string)
    requires AllClean(keys, d, delim)
    requires forall i :: 0 <= i < |keys| ==> keys[i] in d
    ensures EmitFrom(keys, d, last).Some?
    ensures LinesNoBreaks(EmitFrom(keys, d, last).value)
    decreases |keys|
  {
    AllCleanWritable(keys, d, delim);
    if |keys| > 0 {
      var k, tail := keys[0], keys[1..];
      var sec, name := KeySection(k), KeyName(k);
      CleanEntry(k, d[k], delim);
      CleanEntryNoBreaks(k, d[k], delim);
      EmitStep(keys, d, last);
      EmitNoBreaks(tail, d, delim, sec);
      var header := if sec != last then [Header(sec)] else [];
      LinesNoBreaksConcat(header, [Pair(name, d[k])]);
      LinesNoBreaksConcat(header + [Pair(name, d[k])], EmitFrom(tail, d, sec).value);
    }
  }
  /** Loading the text of lines without breaks parses exactly those lines. */
  lemma LoadJoined(lines: seq<string>, delim: string)
    requires forall i :: 0 <= i < |lines| ==> NoBreaks(lines[i])
    ensures Parse(JoinLines(lines), delim) == ParseLines(lines, delim)
  {
    ReadJoinLines(lines);
  }

  /** Parsing the rendering of an optional header and one entry, followed by
      more lines. */
  lemma ParseEntryLines(header: seq<Line>, entry: Line, rest: seq<Line>, delim: string,
                        last: string, sec: string, name: string, v: string, acc: Dict)
    requires header == [] || header == [Header(sec)]
    requires header == [] ==> sec == last
    requires Classify(Render(Header(sec)), delim) == Header(sec)
    requires entry == Pair(name, v)
    requires Classify(Render(entry), delim) == entry && Unquote(v) == Some(v)
    ensures ParseFrom(RenderAll(header + [entry] + rest), delim, last, acc)
            == ParseFrom(RenderAll(rest), delim, sec, AddEntry(acc, HeadId(sec, name), v))
  {
    RenderAllConcat(header + [entry], rest);
    RenderAllConcat(header, [entry]);
    var restText := RenderAll(rest);
    var afterHeader := [Render(entry)] + restText;
    assert RenderAll([entry]) == [Render(entry)];
    ParsePairLine(Render(entry), restText, delim, sec, acc, name, v);
    if header != [] {
      assert RenderAll(header) == [Render(Header(sec))];
      ParseHeaderLine(Render(Header(sec)), afterHeader, delim, last, sec, acc);
    } else {
      assert RenderAll(header) + RenderAll([entry]) + restText == afterHeader;
    }
  }

  /** Distinct identities absent from `acc` stay so after the first is added. */
  lemma FreshTail(keys: seq<string>, acc: Dict, v: string)
    requires |keys| > 0
    requires forall i, j :: 0 <= i < j < |keys| ==> keys[i] != keys[j]
    requires forall i :: 0 <= i < |keys| ==> keys[i] !in acc
    ensures forall i, j :: 0 <= i < j < |keys[1..]| ==> keys[1..][i] != keys[1..][j]
    ensures forall i :: 0 <= i < |keys[1..]| ==> keys[1..][i] !in acc[keys[0] := v]
  {
    assert forall i :: 0 <= i < |keys[1..]| ==> keys[1..][i] == keys[i + 1];
  }

  /** One step of EmitThenParse: the lines of the first identity add its
      entry and move the parser to its section. */
  lemma EmitParseStep(keys: seq<string>, d: Dict, delim: string, last: string, acc: Dict)
    requires |keys| > 0 && AllClean(keys, d, delim) && keys[0] !in acc
    requires forall i :: 0 <= i < |keys| ==> keys[i] in d
    ensures EmitFrom(keys, d, last).Some? && EmitFrom(keys[1..], d, KeySection(keys[0])).Some?
    ensures var k := keys[0];
            ParseFrom(RenderAll(EmitFrom(keys, d, last).value), delim, last, acc)
            == ParseFrom(RenderAll(EmitFrom(keys[1..], d, KeySection(k)).value), delim, KeySection(k), acc[k := d[k]])
  {
    AllCleanWritable(keys, d, delim);
    var k := keys[0];
    CleanEntry(k, d[k], delim);
    EmitStep(keys, d, last);
    var rest := EmitFrom(keys[1..], d, KeySection(k)).value;
    assert EmitFrom(keys, d, last).value == EntryLines(k, d[k], last) + rest;
    ParseCleanEntry(k, d[k], delim, last, rest, acc);
  }

  /** Reloading what EmitFrom writes for distinct clean identities, from the
      section EmitFrom started in, adds exactly those entries. */
  lemma {:induction false} EmitThenParse(keys: seq<string>, d: Dict, delim: string, last: string, acc: Dict)
    requires AllClean(keys, d, delim)
    requires forall i :: 0 <= i < |keys| ==> keys[i] in d
    requires forall i, j :: 0 <= i < j < |keys| ==> keys[i] != keys[j]
    requires forall i :: 0 <= i < |keys| ==> keys[i] !in acc
    ensures EmitFrom(keys, d, last).Some?
    ensures ParseFrom(RenderAll(EmitFrom(keys, d, last).value), delim, last, acc)
            == Some(acc + map k | k in keys :: d[k])
    decreases |keys|
  {
    AllCleanWritable(keys, d, delim);
    if |keys| == 0 {
      MapOfNoKeys(keys, d, acc);
    } else {
      var k := keys[0];
      EmitParseStep(keys, d, delim, last, acc);
      FreshTail(keys, acc, d[k]);
      EmitThenParse(keys[1..], d, delim, KeySection(k), acc[k := d[k]]);
      MapOfKeysStep(keys, d, acc);
    }
  }

  /** Save's text, read back, is parsed as the lines Save rendered. */
  lemma LoadSaved(d: Dict, delim: string)
    requires SaveLines(d).Some? && LinesNoBreaks(SaveLines(d).value)
    ensures SaveText(d).Some?
    ensures Parse(SaveText(d).value, delim) == ParseFrom(RenderAll(SaveLines(d).value), delim, "", map[])
  {
    var lines := RenderAll(SaveLines(d).value);
    LoadJoined(lines, delim);
  }

  /** The identities of a clean dictionary, in Save's order, are all clean. */
  lemma CleanSorted(d: Dict, delim: string)
    requires forall k :: k in d ==> Clean(k, d[k], delim)
    ensures AllClean(SortSet(d.Keys), d, delim)
  {
    var keys := SortSet(d.Keys);
    assert forall i :: 0 <= i < |keys| ==> keys[i] in d;
    AllCleanOf(keys, d, delim);
  }

  /** Loading the lines EmitFrom writes for the distinct clean identities of
      `d`, all of them, gives `d` back. */
  lemma EmitRoundTrip(keys: seq<string>, d: Dict, delim: string)
    requires AllClean(keys, d, delim)
    requires forall i :: 0 <= i < |keys| ==> keys[i] in d
    requires forall i, j :: 0 <= i < j < |keys| ==> keys[i] != keys[j]
    requires forall k :: k in keys <==> k in d
    ensures EmitFrom(keys, d, "").Some?
    ensures ParseLines(RenderAll(EmitFrom(keys, d, "").value), delim) == Some(d)
  {
    EmitThenParse(keys, d, delim, "", map[]);
    MapOfKeys(keys, d);
  }

  /** The round trip for a dictionary whose identities, in Save's order, are
      all clean. */
  lemma SaveThenLoadSorted(d: Dict, delim: string)
    requires AllClean(SortSet(d.Keys), d, delim)
    ensures SaveText(d).Some?
    ensures Parse(SaveText(d).value, delim) == Some(d)
  {
    var keys := SortSet(d.Keys);
    AscendingDistinct(keys);
    EmitNoBreaks(keys, d, delim, "");
    EmitRoundTrip(keys, d, delim);
    assert SaveLines(d) == EmitFrom(keys, d, "");
    LoadSaved(d, delim);
  }

  /** The main result: loading the text Save writes gives back the saved
      dictionary. */
  lemma SaveThenLoad(d: Dict, delim: string)
    requires forall k :: k in d ==> Clean(k, d[k], delim)
    ensures SaveText(d).Some?
    ensures Parse(SaveText(d).value, delim) == Some(d)
  {
    CleanSorted(d, delim);
    SaveThenLoadSorted(d, delim);
  }
}

=== FILE: slots.dfy ===
/** Duplicate chaining. The first value of a key is stored under its head
    identity "[section]key"; later values of the same key go to
    "[section]key~2", "[section]key~3", ...; the parser puts a duplicate in
    the first unused slot and GetAllValues reads slots until the first gap. */
module Slots {
  import opened Wrappers
  import opened Numbers

  /** The engine's dictionary: lower-cased identity to value. */
  type Dict = map<string, string>

  /** The identity of slot `n` of a head identity. */
  function Slot(head: string, n: nat): (r: string)
  {
    head + "~" + NatToString(n)
  }

  predicate TildeFree(s: string)
  {
    '~' !in s
  }

  /** Two slots of one head are the same only for the same number. */
  lemma SlotInjective(head: string, m: nat, n: nat)
    requires Slot(head, m) == Slot(head, n)
    ensures m == n
  {
    assert NatToString(m) == Slot(head, m)[|head| + 1..];
    assert NatToString(n) == Slot(head, n)[|head| + 1..];
    NatToStringInjective(m, n);
  }

  /** A slot is never a '~'-free identity. */
  lemma SlotIsNotHead(head: string, n: nat, other: string)
    requires TildeFree(other)
    ensures Slot(head, n) != other
  {
    assert Slot(head, n)[|head|] == '~';
  }

  /** Slots of different '~'-free heads never collide. */
  lemma SlotsOfDistinctHeads(a: string, m: nat, b: string, n: nat)
    requires TildeFree(a) && TildeFree(b) && Slot(a, m) == Slot(b, n)
    ensures a == b && m == n
  {
    var s := Slot(a, m);
    assert s[|a|] == '~' && Slot(b, n)[|b|] == '~';
    assert a == s[..|a|] && b == Slot(b, n)[..|b|];
    SlotInjective(a, m, n);
  }

  /** The slots numbered below `n`; what remains of the dictionary outside
      them bounds the search for a free slot. */
  ghost function SlotsBelow(head: string, n: nat): (r: set<string>)
  {
    set i | 0 <= i < n :: Slot(head, i)
  }

  lemma SlotsBelowStep(d: Dict, head: string, n: nat)
    requires Slot(head, n) in d
    ensures |d.Keys - SlotsBelow(head, n + 1)| < |d.Keys - SlotsBelow(head, n)|
  {
    var k := Slot(head, n);
    var below, below' := SlotsBelow(head, n), SlotsBelow(head, n + 1);
    if k in below {
      var i :| 0 <= i < n && Slot(head, i) == k;
      SlotInjective(head, i, n);
    }
    assert below' == below + {k};
    var a := d.Keys - below;
    assert k in a;
    assert d.Keys - below' == a - {k};
  }

  /** The first slot number from `n` on that `d` does not use. */
  function FreeSlot(d: Dict, head: string, n: nat): (r: nat)
    ensures r >= n
    ensures Slot(head, r) !in d
    ensures forall i :: n <= i < r ==> Slot(head, i) in d
    decreases |d.Keys - SlotsBelow(head, n)|
  {
    if Slot(head, n) !in d then n
    else
      SlotsBelowStep(d, head, n);
      FreeSlot(d, head, n + 1)
  }

  /** The values in slots `n`, `n + 1`, ... up to the first unused one. */
  function Chain(d: Dict, head: string, n: nat): (vs: seq<string>)
    ensures forall i :: n <= i < n + |vs| ==> Slot(head, i) in d && vs[i - n] == d[Slot(head, i)]
    ensures Slot(head, n + |vs|) !in d
    decreases |d.Keys - SlotsBelow(head, n)|
  {
    if Slot(head, n) !in d then []
    else
      SlotsBelowStep(d, head, n);
      [d[Slot(head, n)]] + Chain(d, head, n + 1)
  }

  /** The slot a new duplicate takes is the one right after the chain that
      GetAllValues reads. */
  lemma ChainEndsAtFreeSlot(d: Dict, head: string, n: nat)
    ensures FreeSlot(d, head, n) == n + |Chain(d, head, n)|
  {
  }

  /** The head value followed by its duplicates: what GetAllValues returns for
      an identity, None when the head is absent. */
  function ValuesAt(d: Dict, head: string): (r: Option<seq<string>>)
    ensures r.None? <==> head !in d
    ensures r.Some? ==> |r.value| >= 1 && r.value[0] == d[head]
    ensures r.Some? ==> forall i :: 2 <= i <= |r.value| ==> Slot(head, i) in d && r.value[i - 1] == d[Slot(head, i)]
    ensures r.Some? ==> Slot(head, |r.value| + 1) !in d
  {
    if head !in d then None
    else
      var tail := Chain(d, head, 2);
      var all := [d[head]] + tail;
      assert forall j :: 1 <= j < |all| ==> all[j] == tail[j - 1];
      Some(all)
  }

  /** Updating an identity that is no slot of `head` from `n` on leaves the
      chain from `n` as it was. */
  lemma {:induction false} ChainFrame(d: Dict, head: string, n: nat, k: string, v: string)
    requires forall i :: i >= n ==> Slot(head, i) != k
    ensures Chain(d[k := v], head, n) == Chain(d, head, n)
    decreases |d.Keys - SlotsBelow(head, n)|
  {
    if Slot(head, n) in d {
      SlotsBelowStep(d, head, n);
      ChainFrame(d, head, n + 1, k, v);
    }
  }
}

=== FILE: store.dfy ===
/** The accessors of IniFile over the parsed dictionary: the identity
    normalisation of TryGetValue and SetValue, GetValue with its write on a
    miss, GetInteger, GetBoolean and GetAllValues. A getter returns its value
    together with the dictionary it leaves behind. */
module Store {
  import opened Wrappers
  import opened Text
  import opened Numbers
  import opened Slots
  import opened Parser

  /** The identity a caller's section and key address: a section that already
      starts with '[' is taken as a ready-made "[section]" prefix. */
  function LookupId(section: string, key: string): (id: string)
  {
    if StartsWith(section, "[") then Lower(section + key) else HeadId(section, key)
  }

  /** A value returned by a getter and the dictionary after the call. */
  datatype Read<T> = Read(value: T, dict: Dict)

  /** TryGetValue: the value stored under the caller's identity, if any. */
  function TryGetValue(d: Dict, section: string, key: string): (r: Option<string>)
    ensures r.Some? <==> LookupId(section, key) in d
    ensures r.Some? ==> r.value == d[LookupId(section, key)]
  {
    var id := LookupId(section, key);
    if id in d then Some(d[id]) else None
  }

  /** SetValue: the head identity takes the new value; every other identity,
      the "~N" duplicates included, keeps its value. */
  function SetValue(d: Dict, section: string, key: string, v: string): (r: Dict)
    ensures r.Keys == d.Keys + {LookupId(section, key)}
    ensures r[LookupId(section, key)] == v
    ensures forall k :: k in d && k != LookupId(section, key) ==> r[k] == d[k]
  {
    d[LookupId(section, key) := v]
  }

  /** GetValue: on a hit the stored value and no change; on a miss the default
      is stored under the identity and returned. Either way the dictionary
      afterwards holds the returned value under the identity. */
  function GetValue(d: Dict, section: string, key: string, defaultValue: string): (r: Read<string>)
    ensures LookupId(section, key) in r.dict && r.dict[LookupId(section, key)] == r.value
    ensures LookupId(section, key) in d ==> r.dict == d
    ensures LookupId(section, key) !in d ==> r.value == defaultValue
    ensures r.dict.Keys == d.Keys + {LookupId(section, key)}
    ensures forall k :: k in d ==> r.dict[k] == d[k]
  {
    match TryGetValue(d, section, key)
    case None => Read(defaultValue, SetValue(d, section, key, defaultValue))
    case Some(v) => Read(v, d)
  }

  /** The clamp of GetInteger: raised to `min`, then lowered to `max`. */
  function Clamp(v: Int32, min: Int32, max: Int32): (r: Int32)
    ensures min <= max ==> min <= r <= max
    ensures min <= v <= max ==> r == v
    ensures max < min ==> r == max
    ensures v < min <= max ==> r == min
    ensures min <= max < v ==> r == max
  {
    var low := if v < min then min else v;
    if low > max then max else low
  }

  /** GetInteger. `asDouble` stands for double.TryParse followed by the
      (int) cast, the fallback tried when the text is no integer. A missing
      key stores and returns the default, unclamped; an unreadable value
      returns the default, unclamped, and changes nothing; a readable value
      is clamped. */
  function GetInteger(d: Dict, section: string, key: string, defaultValue: Int32,
                      minValue: Int32, maxValue: Int32,
                      asDouble: string -> Option<Int32>): (r: Read<Int32>)
    ensures LookupId(section, key) !in d ==>
              r.value == defaultValue && r.dict == SetValue(d, section, key, IntToString(defaultValue))
    ensures LookupId(section, key) in d ==> r.dict == d
    ensures LookupId(section, key) in d && ParseInt32(d[LookupId(section, key)]).Some? ==>
              r.value == Clamp(ParseInt32(d[LookupId(section, key)]).value, minValue, maxValue)
    ensures (LookupId(section, key) in d && ParseInt32(d[LookupId(section, key)]).None?
             && asDouble(d[LookupId(section, key)]).None?) ==> r.value == defaultValue
    ensures (LookupId(section, key) in d && ParseInt32(d[LookupId(section, key)]).None?
             && asDouble(d[LookupId(section, key)]).Some?) ==>
              r.value == Clamp(asDouble(d[LookupId(section, key)]).value, minValue, maxValue)
    ensures (LookupId(section, key) in d && minValue <= maxValue
             && (ParseInt32(d[LookupId(section, key)]).Some? || asDouble(d[LookupId(section, key)]).Some?)) ==>
              minValue <= r.value <= maxValue
  {
    match TryGetValue(d, section, key)
    case None => Read(defaultValue, SetValue(d, section, key, IntToString(defaultValue)))
    case Some(text) =>
      match ParseInt32(text)
      case Some(v) => Read(Clamp(v, minValue, maxValue), d)
      case None =>
        match asDouble(text)
        case None => Read(defaultValue, d)
        case Some(v) => Read(Clamp(v, minValue, maxValue), d)
  }

  /** bool.ToString(). */
  function BoolToString(b: bool): (r: string)
  {
    if b then "True" else "False"
  }

  /** A stored text reads as false exactly when it is "0" or starts with an
      'f' of either case. */
  predicate MeansFalse(v: string)
  {
    v == "0" || (|v| > 0 && (v[0] == 'f' || v[0] == 'F'))
  }

  /** GetBoolean: on a hit, true unless the text means false, and no change;
      on a miss, the default is stored as "True" or "False" and returned. */
  function GetBoolean(d: Dict, section: string, key: string, defaultValue: bool): (r: Read<bool>)
    ensures LookupId(section, key) in d ==> r.value == !MeansFalse(d[LookupId(section, key)]) && r.dict == d
    ensures LookupId(section, key) !in d ==>
              r.value == defaultValue && r.dict == SetValue(d, section, key, BoolToString(defaultValue))
  {
    match TryGetValue(d, section, key)
    case None => Read(defaultValue, SetValue(d, section, key, BoolToString(defaultValue)))
    case Some(text) => Read(!MeansFalse(text), d)
  }

  /** GetAllValues: None when the head is absent, otherwise the head value
      and the values of slots 2, 3, ... up to the first unused one. */
  function GetAllValues(d: Dict, section: string, key: string): (r: Option<seq<string>>)
    ensures r.None? <==> LookupId(section, key) !in d
    ensures r.Some? ==> |r.value| >= 1 && r.value[0] == d[LookupId(section, key)]
    ensures r.Some? ==> forall i :: 2 <= i <= |r.value| ==>
              Slot(LookupId(section, key), i) in d && r.value[i - 1] == d[Slot(LookupId(section, key), i)]
    ensures r.Some? ==> Slot(LookupId(section, key), |r.value| + 1) !in d
  {
    ValuesAt(d, LookupId(section, key))
  }

  /** Lookups fold case in both the section and the key. */
  lemma LookupIgnoresCase(s1: string, k1: string, s2: string, k2: string)
    requires Lower(s1) == Lower(s2) && Lower(k1) == Lower(k2)
    ensures LookupId(s1, k1) == LookupId(s2, k2)
    ensures forall d: Dict, dv: string :: GetValue(d, s1, k1, dv) == GetValue(d, s2, k2, dv)
  {
    assert |s1| == |s2|;
    if |s1| > 0 {
      assert LowerChar(s1[0]) == LowerChar(s2[0]);
      assert s1[0] == '[' <==> s2[0] == '[';
    }
    assert StartsWith(s1, "[") <==> StartsWith(s2, "[");
    LowerConcat(s1, k1);
    LowerConcat(s2, k2);
    LowerConcat("[" + s1 + "]", k1);
    LowerConcat("[" + s2 + "]", k2);
    LowerConcat("[" + s1, "]");
    LowerConcat("[" + s2, "]");
    LowerConcat("[", s1);
    LowerConcat("[", s2);
  }

  /** A bare section is looked up under the identity the parser stores. */
  lemma LookupMatchesParse(section: string, key: string)
    requires |section| == 0 || section[0] != '['
    ensures LookupId(section, key) == HeadId(section, key)
  {
  }

  /** After a GetValue, a second GetValue returns the same value, whatever
      default it passes, and changes nothing. */
  lemma GetValueStable(d: Dict, section: string, key: string, dv: string, dv2: string)
    ensures var first := GetValue(d, section, key, dv);
            GetValue(first.dict, section, key, dv2) == Read(first.value, first.dict)
  {
  }

  /** A GetValue after SetValue returns the value set. */
  lemma GetAfterSet(d: Dict, section: string, key: string, v: string, dv: string)
    ensures GetValue(SetValue(d, section, key, v), section, key, dv).value == v
  {
  }

  /** SetValue replaces the head of the values GetAllValues lists and leaves
      the duplicates after it alone. */
  lemma SetValueKeepsDuplicates(d: Dict, section: string, key: string, v: string)
    requires GetAllValues(d, section, key).Some?
    ensures GetAllValues(SetValue(d, section, key, v), section, key)
            == Some([v] + GetAllValues(d, section, key).value[1..])
  {
    var id := LookupId(section, key);
    forall i: nat | i >= 2
      ensures Slot(id, i) != id
    {
      assert |Slot(id, i)| > |id|;
    }
    ChainFrame(d, id, 2, id, v);
  }

  /** A GetValue that misses makes GetAllValues list the default alone, as
      long as no stray second slot was already stored. */
  lemma MissThenAllValues(d: Dict, section: string, key: string, dv: string)
    requires LookupId(section, key) !in d
    requires Slot(LookupId(section, key), 2) !in d
    ensures GetAllValues(GetValue(d, section, key, dv).dict, section, key) == Some([dv])
  {
    var id := LookupId(section, key);
    assert |Slot(id, 2)| > |id|;
    var d' := GetValue(d, section, key, dv).dict;
    assert d' == d[id := dv];
    var r := GetAllValues(d', section, key);
    assert Slot(id, 2) !in d';
    assert r.value == [dv];
  }

  /** A GetBoolean that stored its default reads it back: a second call
      returns the first call's value whatever default it passes. */
  lemma GetBooleanStable(d: Dict, section: string, key: string, dv: bool, dv2: bool)
    ensures var first := GetBoolean(d, section, key, dv);
            GetBoolean(first.dict, section, key, dv2) == Read(first.value, first.dict)
  {
  }

  /** After a GetInteger that missed, a second call reads the stored default
      back through Int32.TryParse and clamps it; the first call did not. */
  lemma GetIntegerAfterMiss(d: Dict, section: string, key: string, dv: Int32, minValue: Int32,
                            maxValue: Int32, asDouble: string -> Option<Int32>, dv2: Int32)
    requires LookupId(section, key) !in d
    ensures var first := GetInteger(d, section, key, dv, minValue, maxValue, asDouble);
            && first.value == dv
            && GetInteger(first.dict, section, key, dv2, minValue, maxValue, asDouble)
               == Read(Clamp(dv, minValue, maxValue), first.dict)
  {
    ParseIntToString(dv);
  }

  /** A caller may pass the section already bracketed: "[s]" addresses the
      same identity as s. */
  lemma LookupBracketedSection(s: string, key: string)
    requires !StartsWith(s, "[")
    ensures LookupId("[" + s + "]", key) == LookupId(s, key)
  {
    assert StartsWith("[" + s + "]", "[");
    assert "[" + s + "]" + key == ("[" + s + "]") + key;
  }

  /** The text GetBoolean stores for a default reads back as that default. */
  lemma BoolToStringMeans(b: bool)
    ensures MeansFalse(BoolToString(b)) <==> !b
  {
  }
}

=== FILE: text.dfy ===
/** The character and string primitives of the .NET runtime that the INI engine
    relies on: Char.IsWhiteSpace, String.Trim, String.ToLower, String.StartsWith
    and String.IndexOf. Comparisons are exact, character by character, and lowering is ASCII-only; the
    culture-sensitive variants of the runtime are approximated by these. */
module Text {

  /** Char.IsWhiteSpace: the Unicode space, line and paragraph separators plus
      the control characters U+0009..U+000D and U+0085. */
  predicate IsWhiteSpace(c: char)
  {
    || c == ' '
    || ('\t' <= c <= '\r')
    || c == '\U{0085}'
    || c == '\U{00A0}'
    || c == '\U{1680}'
    || ('\U{2000}' <= c <= '\U{200A}')
    || c == '\U{2028}'
    || c == '\U{2029}'
    || c == '\U{202F}'
    || c == '\U{205F}'
    || c == '\U{3000}'
  }

  /** The characters Int32.TryParse skips before and after the number
      (NumberStyles.AllowLeadingWhite and AllowTrailingWhite). */
  predicate IsNumberWhite(c: char)
  {
    c == ' ' || ('\t' <= c <= '\r')
  }

  /** Which characters a strip removes: Char.IsWhiteSpace for String.Trim,
      the number white space for Int32.TryParse. */
  datatype Space = AnySpace | NumberSpace

  predicate IsSpace(c: char, sp: Space)
  {
    match sp
    case AnySpace => IsWhiteSpace(c)
    case NumberSpace => IsNumberWhite(c)
  }

  /** Drops the longest prefix of `s` made of `sp` characters. */
  function StripStart(s: string, sp: Space): (r: string)
    ensures |r| <= |s| && r == s[|s| - |r|..]
    ensures |r| > 0 ==> !IsSpace(r[0], sp)
    ensures forall i :: 0 <= i < |s| - |r| ==> IsSpace(s[i], sp)
    decreases |s|
  {
    if |s| > 0 && IsSpace(s[0], sp) then StripStart(s[1..], sp) else s
  }

  /** Drops the longest suffix of `s` made of `sp` characters. */
  function StripEnd(s: string, sp: Space): (r: string)
    ensures |r| <= |s| && r == s[..|r|]
    ensures |r| > 0 ==> !IsSpace(r[|r| - 1], sp)
    ensures forall i :: |r| <= i < |s| ==> IsSpace(s[i], sp)
    decreases |s|
  {
    if |s| > 0 && IsSpace(s[|s| - 1], sp) then StripEnd(s[..|s| - 1], sp) else s
  }

  /** Neither end of `s` is white space. */
  predicate Trimmed(s: string)
  {
    |s| == 0 || (!IsWhiteSpace(s[0]) && !IsWhiteSpace(s[|s| - 1]))
  }

  /** `r` sits in `s` from position `a` on, with only white space before
      and after it. */
  predicate WhiteAround(s: string, a: nat, r: string)
  {
    && a + |r| <= |s| && r == s[a..a + |r|]
    && (forall i :: 0 <= i < a ==> IsWhiteSpace(s[i]))
    && (forall i :: a + |r| <= i < |s| ==> IsWhiteSpace(s[i]))
  }

  /** String.Trim(): white space removed from both ends, nothing else touched. */
  function Trim(s: string): (r: string)
    ensures Trimmed(r)
    ensures Trimmed(s) ==> r == s
  {
    StripEnd(StripStart(s, AnySpace), AnySpace)
  }

  /** Trim keeps the middle part of `s` and cuts only white space, at
      either end. */
  lemma TrimInfix(s: string)
    ensures Trimmed(Trim(s))
    ensures Trimmed(s) ==> Trim(s) == s
    ensures exists a :: WhiteAround(s, a, Trim(s))
  {
    var a := StripStart(s, AnySpace);
    var r := StripEnd(a, AnySpace);
    var n := |s| - |a|;
    assert r == s[n..n + |r|];
    forall i | n + |r| <= i < |s|
      ensures IsWhiteSpace(s[i])
    {
      assert s[i] == a[i - n] && IsSpace(a[i - n], AnySpace);
    }
    assert WhiteAround(s, n, r);
  }

  /** Trim only removes characters. */
  lemma TrimKeepsChars(s: string)
    ensures forall c :: c in Trim(s) ==> c in s
  {
    var a := StripStart(s, AnySpace);
    assert forall c :: c in Trim(s) ==> c in a;
    assert forall c :: c in a ==> c in s;
  }

  /** Trim leaves nothing exactly when every character is white space. */
  lemma TrimEmpty(s: string)
    ensures Trim(s) == [] <==> forall i :: 0 <= i < |s| ==> IsWhiteSpace(s[i])
  {
    var a := StripStart(s, AnySpace);
    if Trim(s) == [] {
      assert |a| == 0;
    }
  }

  /** Lower-casing of one character, ASCII letters only. */
  function LowerChar(c: char): (r: char)
    ensures 'A' <= c <= 'Z' ==> 'a' <= r <= 'z'
    ensures !('A' <= c <= 'Z') ==> r == c
  {
    if 'A' <= c <= 'Z' then (c as int - 'A' as int + 'a' as int) as char else c
  }

  /** String.ToLower(), approximated by ASCII lower-casing. */
  function Lower(s: string): (r: string)
    ensures |r| == |s|
    ensures forall i :: 0 <= i < |s| ==> r[i] == LowerChar(s[i])
  {
    seq(|s|, i requires 0 <= i < |s| => LowerChar(s[i]))
  }

  lemma LowerConcat(a: string, b: string)
    ensures Lower(a + b) == Lower(a) + Lower(b)
  {
  }

  /** Text without capitals is already lower-cased. */
  lemma LowerNoCapitals(s: string)
    requires forall i :: 0 <= i < |s| ==> !('A' <= s[i] <= 'Z')
    ensures Lower(s) == s
  {
  }

  /** Lower-casing never introduces a character that is not a letter. */
  lemma LowerKeepsOut(s: string, c: char)
    requires !('a' <= c <= 'z') && c !in s
    ensures c !in Lower(s)
  {
  }

  /** String.StartsWith(p), comparing characters exactly. */
  predicate StartsWith(s: string, p: string)
  {
    |p| <= |s| && s[..|p|] == p
  }

  /** String.IndexOf(c), with |s| standing for "not found" (-1 in .NET). */
  function IndexOf(s: string, c: char): (r: nat)
    ensures r <= |s|
    ensures r < |s| ==> s[r] == c
    ensures r == |s| <==> c !in s
    decreases |s|
  {
    if |s| == 0 then 0 else if s[0] == c then 0 else 1 + IndexOf(s[1..], c)
  }

  /** IndexOf finds the first occurrence. */
  lemma {:induction false} IndexOfFirst(s: string, c: char)
    ensures forall i :: 0 <= i < IndexOf(s, c) ==> s[i] != c
    decreases |s|
  {
    if |s| > 0 && s[0] != c {
      IndexOfFirst(s[1..], c);
      assert forall i :: 1 <= i < |s| ==> s[i] == s[1..][i - 1];
    }
  }

  /** IndexOf on a string whose first occurrence of `c` is known. */
  lemma IndexOfAt(a: string, c: char, b: string)
    requires c !in a
    ensures IndexOf(a + [c] + b, c) == |a|
  {
    IndexOfFirst(a + [c] + b, c);
    assert (a + [c] + b)[|a|] == c;
  }
}

=== FILE: wrappers.dfy ===
/** The optional value used wherever the INI engine can come back empty-handed:
    a lookup that misses, a parse that fails, a save that throws. */
module Wrappers {

  datatype Option<+T> = None | Some(value: T)
}

=== FILE: writer.dfy ===
/** IniFile.Save's text generation: the dictionary in ascending identity
    order, a "[section]" header whenever an entry's section differs from the
    previous one (starting from ""), then "key=value" for the entry. The
    section and key of an identity are recovered with String.Split, which
    throws on identities that lack the brackets. */
module Writer {
  import opened Wrappers
  import opened Text
  import opened Lines
  import opened Ordering
  import opened Slots
  import opened Parser

  /** k.Split(']')[0].Split('[')[1]: after the first '[' of the text before
      the first ']', up to the next '['; None where the indexing throws. */
  function SectionOf(k: string): (r: Option<string>)
  {
    var pre := k[..IndexOf(k, ']')];
    if '[' !in pre then None
    else
      var rest := pre[IndexOf(pre, '[') + 1..];
      Some(rest[..IndexOf(rest, '[')])
  }

  /** k.Split(']')[1]: between the first and the second ']'; None where the
      indexing throws. */
  function NameOf(k: string): (r: Option<string>)
  {
    if ']' !in k then None
    else
      var rest := k[IndexOf(k, ']') + 1..];
      Some(rest[..IndexOf(rest, ']')])
  }

  /** Save can split this identity without throwing. */
  predicate Writable(k: string)
  {
    SectionOf(k).Some? && NameOf(k).Some?
  }

  /** Save can split every identity of `keys`. */
  predicate AllWritable(keys: seq<string>)
    decreases |keys|
  {
    |keys| > 0 ==> Writable(keys[0]) && AllWritable(keys[1..])
  }

  lemma {:induction false} AllWritableIndex(keys: seq<string>)
    ensures AllWritable(keys) <==> forall i :: 0 <= i < |keys| ==> Writable(keys[i])
    decreases |keys|
  {
    if |keys| > 0 {
      AllWritableIndex(keys[1..]);
      assert forall i :: 1 <= i < |keys| ==> keys[i] == keys[1..][i - 1];
    }
  }

  lemma {:induction false} BracketedWritable(keys: seq<string>)
    requires forall i :: 0 <= i < |keys| ==> Bracketed(keys[i])
    ensures AllWritable(keys)
    decreases |keys|
  {
    if |keys| > 0 {
      BracketedSection(keys[0]);
      assert forall i :: 0 <= i < |keys[1..]| ==> keys[1..][i] == keys[i + 1];
      BracketedWritable(keys[1..]);
    }
  }

  /** An identity of the shape "[section]rest" with no '[' in the section,
      as the parser produces from any section without brackets. */
  predicate Bracketed(k: string)
  {
    |k| > 0 && k[0] == '[' && ']' in k && '[' !in k[1..IndexOf(k, ']')]
  }

  /** The section Save reads out of "[s]rest" is s, when s has no brackets. */
  lemma SectionOfPrefixed(sec: string, rest: string)
    requires '[' !in sec && ']' !in sec
    ensures SectionOf("[" + sec + "]" + rest) == Some(sec)
  {
    var k := "[" + sec + "]" + rest;
    IndexOfAt("[" + sec, ']', rest);
    assert k == "[" + sec + [']'] + rest;
    var pre := k[..|sec| + 1];
    assert pre == "[" + sec;
    assert pre[0] == '[';
    assert pre[1..] == sec;
    assert sec[..|sec|] == sec;
  }

  /** A section holding '[' is cut at that '[': "[a[b]rest" is read as
      section a. */
  lemma SectionOfNested(a: string, b: string, rest: string)
    requires '[' !in a && ']' !in a && ']' !in b
    ensures SectionOf("[" + a + "[" + b + "]" + rest) == Some(a)
  {
    var k := "[" + a + "[" + b + "]" + rest;
    var pre := "[" + a + "[" + b;
    IndexOfAt(pre, ']', rest);
    assert k == pre + [']'] + rest;
    assert k[..|pre|] == pre;
    assert pre[0] == '[';
    var inner := a + [('[')] + b;
    assert pre[1..] == inner;
    IndexOfAt(a, '[', b);
    assert inner[..|a|] == a;
  }

  /** Save writes the key as the text between the first and the second ']'. */
  lemma NameOfPrefixed(sec: string, rest: string)
    requires ']' !in sec
    ensures NameOf("[" + sec + "]" + rest) == Some(rest[..IndexOf(rest, ']')])
  {
    var k := "[" + sec + "]" + rest;
    assert ']' !in "[" + sec;
    IndexOfAt("[" + sec, ']', rest);
    assert k == "[" + sec + [']'] + rest;
    assert k[|sec| + 2..] == rest;
  }

  /** A key without ']' is written whole. */
  lemma NameOfKey(sec: string, key: string)
    requires ']' !in sec && ']' !in key
    ensures NameOf("[" + sec + "]" + key) == Some(key)
  {
    NameOfPrefixed(sec, key);
    assert key[..|key|] == key;
  }

  /** A key holding ']' is written cut short at its first ']'. */
  lemma NameOfCut(sec: string, key: string, rest: string)
    requires ']' !in sec && ']' !in key
    ensures NameOf("[" + sec + "]" + key + "]" + rest) == Some(key)
  {
    var tail := key + [']'] + rest;
    assert "[" + sec + "]" + key + "]" + rest == "[" + sec + "]" + tail;
    NameOfPrefixed(sec, tail);
    IndexOfAt(key, ']', rest);
    assert tail[..|key|] == key;
  }

  /** A bracketed identity is "[" + its section + "]" + the rest. */
  lemma BracketedSection(k: string)
    requires Bracketed(k)
    ensures var n := IndexOf(k, ']');
            && k == "[" + k[1..n] + "]" + k[n + 1..]
            && '[' !in k[1..n] && ']' !in k[1..n]
            && SectionOf(k) == Some(k[1..n])
    ensures Writable(k)
  {
    var n := IndexOf(k, ']');
    IndexOfFirst(k, ']');
    assert k == "[" + k[1..n] + "]" + k[n + 1..];
    SectionOfPrefixed(k[1..n], k[n + 1..]);
  }

  /** The text of a line Save writes. */
  function Render(l: Line): (r: string)
  {
    match l
    case Header(s) => "[" + s + "]"
    case Pair(k, v) => k + "=" + v
    case _ => ""
  }

  function RenderAll(ls: seq<Line>): (r: seq<string>)
    ensures |r| == |ls|
    ensures forall i :: 0 <= i < |ls| ==> r[i] == Render(ls[i])
  {
    if |ls| == 0 then [] else [Render(ls[0])] + RenderAll(ls[1..])
  }

  /** The lines Save writes for `keys`, in that order, when the previous
      entry's section was `last`; None when an identity cannot be split. */
  function EmitFrom(keys: seq<string>, d: Dict, last: string): (r: Option<seq<Line>>)
    requires forall i :: 0 <= i < |keys| ==> keys[i] in d
    ensures r.Some? <==> AllWritable(keys)
    ensures r.Some? ==> forall i :: 0 <= i < |r.value| ==> r.value[i].Header? || r.value[i].Pair?
    decreases |keys|
  {
    if |keys| == 0 then Some([])
    else
      var k := keys[0];
      if !Writable(k) then None
      else
        var s := SectionOf(k).value;
        var header := if s != last then [Header(s)] else [];
        match EmitFrom(keys[1..], d, s)
        case None => None
        case Some(rest) => Some(header + [Pair(NameOf(k).value, d[k])] + rest)
  }

  /** The lines of Save's output for the whole dictionary. */
  function SaveLines(d: Dict): (r: Option<seq<Line>>)
    ensures r.None? <==> exists k :: k in d && !Writable(k)
  {
    var keys := SortSet(d.Keys);
    AllWritableIndex(keys);
    EmitFrom(keys, d, "")
  }

  /** The text Save writes: every line followed by "\n". */
  function SaveText(d: Dict): (r: Option<string>)
  {
    match SaveLines(d)
    case None => None
    case Some(ls) => Some(JoinLines(RenderAll(ls)))
  }

  /** In ascending order the identities of one section are adjacent. */
  ghost predicate SectionsGrouped(keys: seq<string>)
  {
    forall i, j, l :: 0 <= i < j < l < |keys| && SectionOf(keys[i]) == SectionOf(keys[l]) ==>
      SectionOf(keys[j]) == SectionOf(keys[i])
  }

  /** A string between two strings that share a prefix shares it too. */
  lemma {:induction false} PrefixBetween(a: string, b: string, c: string, p: string)
    requires Below(a, b) && Below(b, c)
    requires StartsWith(a, p) && StartsWith(c, p)
    ensures StartsWith(b, p)
    decreases |p|
  {
    if |p| > 0 {
      assert a[0] == p[0] && c[0] == p[0];
      assert b[0] == p[0];
      assert a[1..][..|p| - 1] == p[1..];
      assert c[1..][..|p| - 1] == p[1..];
      PrefixBetween(a[1..], b[1..], c[1..], p[1..]);
      assert b == [b[0]] + b[1..];
    }
  }

  /** The "[section]" prefix of a bracketed identity. */
  function SectionPrefix(k: string): (p: string)
    requires Bracketed(k)
    ensures StartsWith(k, p)
    ensures |p| >= 2 && SectionOf(k) == Some(p[1..|p| - 1])
    ensures '[' !in p[1..|p| - 1] && ']' !in p[1..|p| - 1]
  {
    BracketedSection(k);
    var n := IndexOf(k, ']');
    assert k[..n + 1][1..n] == k[1..n];
    k[..n + 1]
  }

  /** Identities of one section share their "[section]" prefix. */
  lemma SameSectionSamePrefix(a: string, c: string)
    requires Bracketed(a) && Bracketed(c) && SectionOf(a) == SectionOf(c)
    ensures SectionPrefix(a) == SectionPrefix(c)
  {
    var p, q := SectionPrefix(a), SectionPrefix(c);
    BracketedSection(a);
    BracketedSection(c);
    assert p == "[" + p[1..|p| - 1] + "]";
    assert q == "[" + q[1..|q| - 1] + "]";
  }

  /** An identity sorted between two identities of one section belongs to
      that section. */
  lemma SectionBetween(a: string, b: string, c: string)
    requires Below(a, b) && Below(b, c)
    requires Bracketed(a) && Bracketed(c)
    requires SectionOf(a) == SectionOf(c)
    ensures SectionOf(b) == SectionOf(a)
  {
    var p := SectionPrefix(a);
    SameSectionSamePrefix(a, c);
    PrefixBetween(a, b, c, p);
    var sec := p[1..|p| - 1];
    assert p == "[" + sec + "]";
    assert b == p + b[|p|..];
    SectionOfPrefixed(sec, b[|p|..]);
  }

  lemma AscendingGroupsSections(keys: seq<string>)
    requires Ascending(keys)
    requires forall i :: 0 <= i < |keys| ==> Bracketed(keys[i])
    ensures SectionsGrouped(keys)
  {
    forall i, j, l | 0 <= i < j < l < |keys| && SectionOf(keys[i]) == SectionOf(keys[l])
      ensures SectionOf(keys[j]) == SectionOf(keys[i])
    {
      SectionBetween(keys[i], keys[j], keys[l]);
    }
  }

  /** The identities of section `x` come before all others. */
  ghost predicate LeadingSection(keys: seq<string>, x: string)
  {
    forall j :: 0 <= j < |keys| && SectionOf(keys[j]) == Some(x) ==>
      forall i :: 0 <= i < j ==> SectionOf(keys[i]) == Some(x)
  }

  /** The sections Save reads out of `keys`. */
  function Sections(keys: seq<string>): (r: set<Option<string>>)
  {
    if |keys| == 0 then {} else {SectionOf(keys[0])} + Sections(keys[1..])
  }

  lemma SectionsContain(keys: seq<string>, j: nat)
    requires j < |keys|
    ensures SectionOf(keys[j]) in Sections(keys)
  {
    if j > 0 {
      SectionsContain(keys[1..], j - 1);
    }
  }

  /** EmitFrom on at least one writable identity: an optional header, the
      first entry, then the lines of the others. */
  lemma EmitStep(keys: seq<string>, d: Dict, last: string)
    requires |keys| > 0 && (forall i :: 0 <= i < |keys| ==> keys[i] in d) && AllWritable(keys)
    ensures EmitFrom(keys, d, last).Some? && EmitFrom(keys[1..], d, SectionOf(keys[0]).value).Some?
    ensures var s := SectionOf(keys[0]).value;
            EmitFrom(keys, d, last).value
            == (if s != last then [Header(s)] else []) + [Pair(NameOf(keys[0]).value, d[keys[0]])]
               + EmitFrom(keys[1..], d, s).value
  {
    assert forall i :: 0 <= i < |keys[1..]| ==> keys[1..][i] == keys[i + 1];
  }

  /** Every header EmitFrom writes is the section of one of its identities. */
  lemma {:induction false} EmitHeadersAreSections(keys: seq<string>, d: Dict, last: string)
    requires (forall i :: 0 <= i < |keys| ==> keys[i] in d) && AllWritable(keys)
    ensures EmitFrom(keys, d, last).Some?
    ensures var out := EmitFrom(keys, d, last).value;
            forall a :: 0 <= a < |out| && out[a].Header? ==> Some(out[a].section) in Sections(keys)
    decreases |keys|
  {
    if |keys| > 0 {
      EmitStep(keys, d, last);
      EmitHeadersAreSections(keys[1..], d, SectionOf(keys[0]).value);
    }
  }

  /** EmitFrom repeats no header of `last` when the identities of section
      `last` come first. */
  lemma {:induction false} EmitSkipsLeadingSection(keys: seq<string>, d: Dict, last: string)
    requires (forall i :: 0 <= i < |keys| ==> keys[i] in d) && AllWritable(keys)
    requires LeadingSection(keys, last)
    ensures EmitFrom(keys, d, last).Some?
    ensures var out := EmitFrom(keys, d, last).value;
            forall a :: 0 <= a < |out| && out[a].Header? ==> out[a].section != last
    decreases |keys|
  {
    if |keys| > 0 {
      var s := SectionOf(keys[0]).value;
      EmitStep(keys, d, last);
      if s == last {
        assert LeadingSection(keys[1..], last);
        EmitSkipsLeadingSection(keys[1..], d, last);
      } else {
        EmitHeadersAreSections(keys[1..], d, s);
        if Some(last) in Sections(keys) {
          SectionsIndex(keys, Some(last));
        }
      }
    }
  }

  lemma {:induction false} SectionsIndex(keys: seq<string>, x: Option<string>)
    requires x in Sections(keys)
    ensures exists j :: 0 <= j < |keys| && SectionOf(keys[j]) == x
  {
    if SectionOf(keys[0]) != x {
      SectionsIndex(keys[1..], x);
      var j :| 0 <= j < |keys[1..]| && SectionOf(keys[1..][j]) == x;
      assert keys[1..][j] == keys[j + 1];
    }
  }

  /** No two headers of `out` name the same section. */
  ghost predicate HeadersDistinct(out: seq<Line>)
  {
    forall a, b :: 0 <= a < b < |out| && out[a].Header? && out[b].Header? ==>
      out[a].section != out[b].section
  }

  /** Dropping the first identity keeps the sections grouped, and puts the
      rest of the first identity's section first. */
  lemma GroupedTail(keys: seq<string>, s: string)
    requires |keys| > 0 && SectionOf(keys[0]) == Some(s)
    requires SectionsGrouped(keys)
    ensures SectionsGrouped(keys[1..]) && LeadingSection(keys[1..], s)
  {
    assert forall i :: 0 <= i < |keys[1..]| ==> keys[1..][i] == keys[i + 1];
  }

  /** An optional header of `s` and a pair before lines with distinct headers,
      none of them `s`. */
  lemma HeadersDistinctCons(header: seq<Line>, p: Line, rest: seq<Line>, s: string)
    requires header == [] || header == [Header(s)]
    requires p.Pair? && HeadersDistinct(rest)
    requires forall a :: 0 <= a < |rest| && rest[a].Header? ==> rest[a].section != s
    ensures HeadersDistinct(header + [p] + rest)
  {
    var out := header + [p] + rest;
    assert forall a :: |header| < a < |out| ==> out[a] == rest[a - |header| - 1];
  }

  /** With sections grouped, EmitFrom writes no header twice. */
  lemma {:induction false} EmitHeadersDistinct(keys: seq<string>, d: Dict, last: string)
    requires (forall i :: 0 <= i < |keys| ==> keys[i] in d) && AllWritable(keys)
    requires SectionsGrouped(keys)
    ensures EmitFrom(keys, d, last).Some?
    ensures HeadersDistinct(EmitFrom(keys, d, last).value)
    decreases |keys|
  {
    if |keys| > 0 {
      var s, tail := SectionOf(keys[0]).value, keys[1..];
      EmitStep(keys, d, last);
      GroupedTail(keys, s);
      EmitHeadersDistinct(tail, d, s);
      EmitSkipsLeadingSection(tail, d, s);
      var header := if s != last then [Header(s)] else [];
      HeadersDistinctCons(header, Pair(NameOf(keys[0]).value, d[keys[0]]), EmitFrom(tail, d, s).value, s);
    }
  }

  /** Save writes each section header at most once. */
  lemma SaveWritesEachHeaderOnce(d: Dict)
    requires forall k :: k in d ==> Bracketed(k)
    ensures SaveLines(d).Some?
    ensures HeadersDistinct(SaveLines(d).value)
  {
    var keys := SortSet(d.Keys);
    assert forall i :: 0 <= i < |keys| ==> Bracketed(keys[i]);
    SortedHeadersDistinct(keys, d);
  }

  /** EmitFrom over bracketed identities in ascending order, from section
      "", writes each header once. */
  lemma SortedHeadersDistinct(keys: seq<string>, d: Dict)
    requires forall i :: 0 <= i < |keys| ==> keys[i] in d && Bracketed(keys[i])
    requires Ascending(keys)
    ensures EmitFrom(keys, d, "").Some?
    ensures HeadersDistinct(EmitFrom(keys, d, "").value)
  {
    BracketedWritable(keys);
    AscendingGroupsSections(keys);
    EmitHeadersDistinct(keys, d, "");
  }

  /** A key=value line as a reader of Save's output sees it: the section in
      force, the key and the value. */
  datatype Written = Written(section: string, key: string, value: string)

  /** The key=value lines of `out` in order, each with the section the
      nearest header before it names, `cur` when no header precedes it. */
  function ReadBack(out: seq<Line>, cur: string): (r: seq<Written>)
    decreases |out|
  {
    if |out| == 0 then []
    else
      match out[0]
      case Header(s) => ReadBack(out[1..], s)
      case Pair(k, v) => [Written(cur, k, v)] + ReadBack(out[1..], cur)
      case _ => ReadBack(out[1..], cur)
  }

  /** Every header of `out` names a section other than the one in force
      before it, `cur` at the start, and a key=value line follows it. */
  predicate HeadersOnChange(out: seq<Line>, cur: string)
    decreases |out|
  {
    |out| > 0 ==>
      match out[0]
      case Header(s) => s != cur && |out| > 1 && out[1].Pair? && HeadersOnChange(out[1..], s)
      case _ => HeadersOnChange(out[1..], cur)
  }

  /** Section, key and value of each identity of `keys`, in that order. */
  function WrittenOf(keys: seq<string>, d: Dict): (r: seq<Written>)
    requires forall i :: 0 <= i < |keys| ==> keys[i] in d
    requires AllWritable(keys)
    decreases |keys|
  {
    if |keys| == 0 then []
    else [Written(SectionOf(keys[0]).value, NameOf(keys[0]).value, d[keys[0]])] + WrittenOf(keys[1..], d)
  }

  /** Reading back an optional header of `s`, one key=value line and more
      lines. */
  lemma ReadBackStep(s: string, last: string, k: string, v: string, rest: seq<Line>)
    ensures var out := (if s != last then [Header(s)] else []) + [Pair(k, v)] + rest;
            && ReadBack(out, last) == [Written(s, k, v)] + ReadBack(rest, s)
            && (HeadersOnChange(out, last) <==> HeadersOnChange(rest, s))
  {
    assert ([Pair(k, v)] + rest)[1..] == rest;
    if s != last {
      assert ([Header(s)] + [Pair(k, v)] + rest)[1..] == [Pair(k, v)] + rest;
    }
  }

  /** EmitFrom writes one key=value line per identity, in the order given,
      each under a header of its own section or, when none precedes it,
      under `last`; and it writes a header only where the section changes. */
  lemma {:induction false} EmitReadBack(keys: seq<string>, d: Dict, last: string)
    requires (forall i :: 0 <= i < |keys| ==> keys[i] in d) && AllWritable(keys)
    ensures EmitFrom(keys, d, last).Some?
    ensures ReadBack(EmitFrom(keys, d, last).value, last) == WrittenOf(keys, d)
    ensures HeadersOnChange(EmitFrom(keys, d, last).value, last)
    decreases |keys|
  {
    if |keys| > 0 {
      var k, s := keys[0], SectionOf(keys[0]).value;
      EmitStep(keys, d, last);
      EmitReadBack(keys[1..], d, s);
      ReadBackStep(s, last, NameOf(k).value, d[k], EmitFrom(keys[1..], d, s).value);
    }
  }

  lemma {:induction false} WrittenOfIndex(keys: seq<string>, d: Dict)
    requires (forall i :: 0 <= i < |keys| ==> keys[i] in d) && AllWritable(keys)
    ensures |WrittenOf(keys, d)| == |keys|
    ensures forall i :: 0 <= i < |keys| ==>
              var w := WrittenOf(keys, d)[i];
              SectionOf(keys[i]) == Some(w.section) && NameOf(keys[i]) == Some(w.key) && d[keys[i]] == w.value
    decreases |keys|
  {
    if |keys| > 0 {
      WrittenOfIndex(keys[1..], d);
      assert forall i :: 1 <= i < |keys| ==> keys[i] == keys[1..][i - 1];
    }
  }

  /** Save's order and headers: the i-th key=value line is that of the i-th
      identity in ascending order, written as the key after the first ']'
      and the value; the nearest header before it names the identity's
      section, or there is none and the section is ""; and a header is
      written only where the section changes. */
  lemma SaveOrder(d: Dict)
    requires SaveLines(d).Some?
    ensures var keys, out := SortSet(d.Keys), SaveLines(d).value;
            && |ReadBack(out, "")| == |keys|
            && (forall i :: 0 <= i < |keys| ==>
                  var w := ReadBack(out, "")[i];
                  SectionOf(keys[i]) == Some(w.section) && NameOf(keys[i]) == Some(w.key) && d[keys[i]] == w.value)
            && HeadersOnChange(out, "")
  {
    var keys := SortSet(d.Keys);
    assert forall i :: 0 <= i < |keys| ==> keys[i] in d;
    AllWritableIndex(keys);
    EmitReadBack(keys, d, "");
    WrittenOfIndex(keys, d);
  }

  /** Opens with '[' and has a ']': every identity the parser stores. */
  predicate HeadShaped(k: string)
  {
    |k| > 0 && k[0] == '[' && ']' in k
  }

  /** Save splits any identity that opens with '[' and has a ']', whatever
      brackets its section holds. */
  lemma HeadShapedWritable(k: string)
    requires HeadShaped(k)
    ensures Writable(k)
  {
    var n := IndexOf(k, ']');
    assert k[..n][0] == '[';
  }

  lemma HeadIdShaped(section: string, key: string)
    ensures HeadShaped(HeadId(section, key))
  {
    var s := "[" + section + "]" + key;
    assert s[0] == '[' && s[|section| + 1] == ']';
    assert HeadId(section, key)[|section| + 1] == ']';
  }

  lemma SlotShaped(head: string, n: nat)
    requires HeadShaped(head)
    ensures HeadShaped(Slot(head, n))
  {
    var i := IndexOf(head, ']');
    assert Slot(head, n)[i] == ']';
  }

  /** The parse loop, from a dictionary of such identities, stores only
      such identities. */
  lemma {:induction false} ParseFromShaped(lines: seq<string>, delim: string, section: string, acc: Dict)
    requires forall k :: k in acc ==> HeadShaped(k)
    requires ParseFrom(lines, delim, section, acc).Some?
    ensures forall k :: k in ParseFrom(lines, delim, section, acc).value ==> HeadShaped(k)
    decreases |lines|
  {
    if |lines| > 0 {
      var c := Classify(lines[0], delim);
      if c.Header? {
        ParseFromShaped(lines[1..], delim, c.section, acc);
      } else if c.Pair? {
        var id, v := HeadId(section, c.key), Unquote(c.value).value;
        HeadIdShaped(section, c.key);
        if id in acc {
          SlotShaped(id, FreeSlot(acc, id, 2));
        }
        ParseFromShaped(lines[1..], delim, section, AddEntry(acc, id, v));
      } else {
        ParseFromShaped(lines[1..], delim, section, acc);
      }
    }
  }

  /** Save never throws on a dictionary a load produced: the parser stores
      only identities Save can split, even for sections holding '['. */
  lemma SaveAfterLoad(text: string, delim: string)
    requires Parse(text, delim).Some?
    ensures SaveText(Parse(text, delim).value).Some?
  {
    var d := Parse(text, delim).value;
    ParseFromShaped(ReadLines(text), delim, "", map[]);
    forall k | k in d
      ensures Writable(k)
    {
      HeadShapedWritable(k);
    }
  }

  /** The sections Save reads out of the three identities below. */
  lemma BracketedSplits()
    ensures SectionOf("[x[y]k") == Some("x") && SectionOf("[x\\]k") == Some("x\\") && SectionOf("[x]k") == Some("x")
  {
    assert "[" + "x" + "[" + "y" + "]" + "k" == "[x[y]k";
    assert "[" + "x\\" + "]" + "k" == "[x\\]k";
    assert "[" + "x" + "]" + "k" == "[x]k";
    SectionOfNested("x", "y", "k");
    SectionOfPrefixed("x\\", "k");
    SectionOfPrefixed("x", "k");
  }

  /** Three identities, of which the first and the last share a section
      the middle one does not, are not grouped by section. */
  lemma UngroupedAt(keys: seq<string>, i: nat, j: nat, l: nat)
    requires i < j < l < |keys|
    requires SectionOf(keys[i]) == SectionOf(keys[l]) != SectionOf(keys[j])
    ensures !SectionsGrouped(keys)
  {
  }

  /** Sections holding '[' are not kept together. The headers "[x[y]", "[x\]"
      and "[x]", each followed by "k=...", load as the identities
      "[x[y]k", "[x\]k" and "[x]k" (Parser.HeadId; Classify reads a header
      "[s]" as section s whatever brackets s holds, ClassifyHeaderLine).
      They are in ascending code-point order, yet Save reads the first and the last as
      section "x" and the middle one as section "x\", so the grouping that
      EmitHeadersDistinct needs fails and Save writes the header "[x]"
      twice. */
  lemma BracketedSectionsInterleave()
    ensures HeadId("x[y", "k") == "[x[y]k" && HeadId("x\\", "k") == "[x\\]k" && HeadId("x", "k") == "[x]k"
    ensures Ascending(["[x[y]k", "[x\\]k", "[x]k"])
    ensures !SectionsGrouped(["[x[y]k", "[x\\]k", "[x]k"])
  {
    BracketedIds();
    BracketedAscending();
    BracketedSplits();
    var keys := ["[x[y]k", "[x\\]k", "[x]k"];
    assert keys[0] == "[x[y]k" && keys[1] == "[x\\]k" && keys[2] == "[x]k";
    UngroupedAt(keys, 0, 1, 2);
  }

  lemma BracketedAscending()
    ensures Ascending(["[x[y]k", "[x\\]k", "[x]k"])
  {
  }

  /** The identities the parser builds for key k in those sections. */
  lemma BracketedIds()
    ensures HeadId("x[y", "k") == "[x[y]k" && HeadId("x\\", "k") == "[x\\]k" && HeadId("x", "k") == "[x]k"
  {
    LowerNoCapitals("[x[y]k");
    LowerNoCapitals("[x\\]k");
    LowerNoCapitals("[x]k");
  }
}
